=== FILE: README.md ===
# rtpproxy DTLS gateway — a Dafny model

This project models the core of rtpproxy's DTLS gateway module and the
shared pieces it stands on:

- **Connection state machine** (`modules/dtls_gw/rtpp_dtls_conn.c`). It
  covers the SRTP crypto-suite table and the mapping from negotiated
  profile to suite. It also covers key export and splitting, peer-mode
  negotiation, the `setmode` checks (role, digest algorithm, fingerprint,
  SSRC), the handshake steps, timeout handling and the SRTP protect and
  unprotect paths.
- **Gateway front-end** (`modules/dtls_gw/rtpp_dtls_gw.c`). It covers the
  control-command parser and handler, the per-stream association registry,
  the status reply, the packet classifier, the work queue and the worker
  that drains it.
- **Chained hash table** (`src/rtpp_hash_table.c`). It covers append, find,
  remove, remove-by-key, `foreach` and `foreach_key` with their
  match/delete/break verdicts, length and purge. The pointer level of one
  chain is modelled separately in `ChainLinks`; it is a second view of the
  same code and is not formally tied to the sequence view of `HashTable`.
- **Static module table and lookup** (`src/rtpp_module_if_static.c`).

The TLS and SRTP libraries are oracles. A handshake step takes an `Engine`
record holding the library's answers for that step, and protect/unprotect
are function parameters. The table's hash function is a parameter
`h: Key -> Bucket`. Locks and the compare-and-swap that publishes an
association become a sequential "set if empty". A racing publisher is a
parameter.

Modules: `Common` (options, bytes), `Suites`, `Keying`, `SsrcParse`,
`DtlsConn`, `DtlsConnProps`, `DtlsGw`, `HashTable`, `ChainLinks`,
`StaticModules`.

Where the code and its design description differ, the model follows the
code:

- **DEAD may keep the outbound context.** An association can go DEAD still
  holding its outbound SRTP context. This happens when creating the inbound
  context fails after the outbound one exists. Only UP guarantees that both
  contexts are present (`DtlsConnProps.DeadKeepsOutboundContext`).
- **Stale-timer guard.** The guard in the timeout handler checks only that
  a timer is recorded. It does not check that the recorded timer is the one
  that fired.
- **Timer failure on connect.** `tls_connect` ignores a failure to
  schedule the retransmission timer; `tls_accept` reports it.
- **Timer left armed.** Going DEAD in `dtls_recv` does not cancel the timer.
- **`foreach` break.** A `foreach` callback answering "break" ends only the
  scan of the current bucket. The next bucket is still visited.
- **Command selector.** The verb is selected by `argv[0][0] | argv[0][1]`.
  So `"active"` is refused, while `"sa"` is read as status.

## Model

| member | source | states |
|---|---|---|
| Suites.SuiteRow | modules/dtls_gw/rtpp_dtls_conn.c:95-126 | every suite has a 16- or 32-byte key and a 14- or 12-byte salt that fit the 46-byte key buffers and the 256-byte export buffer, an authentication tag of 4, 10 or 16 bytes, confidentiality plus authentication, and a policy initialiser exactly when it is not an F8 suite |
| Suites.MaterialSize | modules/dtls_gw/rtpp_dtls_conn.c:782-788 | one direction's key plus salt is non-empty, fits a key buffer, and both directions together fit the export buffer |
| Suites.ProfileSuite | modules/dtls_gw/rtpp_dtls_conn.c:749-780 | exactly profiles 1, 2, 3, 4, 7 and 8 select a suite, each the row of its own name (1 AES_CM_128_HMAC_SHA1_80, 2 AES_CM_128_HMAC_SHA1_32, 3 F8_128_HMAC_SHA1_80, 4 F8_128_HMAC_SHA1_32, 7 AES_128_GCM, 8 AES_256_GCM); the selected row lacks a policy initialiser exactly for the F8 profiles 3 and 4; the AES-256 counter-mode suites are never selected; key size and tag size follow the profile |
| Suites.ProfileSuiteInjective | modules/dtls_gw/rtpp_dtls_conn.c:749-780 | two different profiles never select the same suite |
| Keying.MemSecClean | modules/dtls_gw/rtpp_dtls_conn.c:721-729 | the scrubbed buffer keeps its length and holds only zeros |
| Keying.SplitKeyBlock | modules/dtls_gw/rtpp_dtls_conn.c:798-806 | the client and server strings are each key plus salt long, and rejoining their key and salt halves in wire order gives back the exported block |
| Keying.SplitOfJoin | modules/dtls_gw/rtpp_dtls_conn.c:798-806 | splitting a block assembled as client key, server key, client salt, server salt recovers client key+salt and server key+salt |
| Keying.TlsSrtpKeyinfo | modules/dtls_gw/rtpp_dtls_conn.c:731-811 | no profile, an unmapped profile (abort) and a failed export are each reported exactly when they occur; on success the suite is the profile's, both key strings have the suite's size and rejoin to the exported bytes, and the export buffer is left all zero |
| SsrcParse.Strtoul | modules/dtls_gw/rtpp_dtls_conn.c:305 | the conversion stays within unsigned long, consumes no input exactly when no digit follows the optional spaces and sign, and otherwise ends exactly after the digits |
| SsrcParse.ParseSsrc | modules/dtls_gw/rtpp_dtls_conn.c:304-311 | an SSRC string is accepted exactly when it is spaces, an optional sign and digits to the end; the stored value is the conversion truncated to 32 bits |
| SsrcParse.ParseDecimalRoundTrip | modules/dtls_gw/rtpp_dtls_conn.c:304-311 | every 32-bit value written in decimal parses back to itself |
| SsrcParse.NegativeWraps | modules/dtls_gw/rtpp_dtls_conn.c:305-310 | "-1" is accepted and stored as 0xFFFFFFFF |
| SsrcParse.RejectsEmptyAndTrailing | modules/dtls_gw/rtpp_dtls_conn.c:306-309 | the empty string and a number followed by garbage are refused |
| DtlsConn.NewConn | modules/dtls_gw/rtpp_dtls_conn.c:193-226 | a new connection comes from zeroed memory: no peer fingerprint, the "no SSRC" value 0, no timer and no SRTP contexts; it is in INIT and ACTPASS mode, and valid |
| DtlsConn.PickMode | modules/dtls_gw/rtpp_dtls_conn.c:254-269 | the local role is the opposite of the peer's: active exactly when the peer is passive, passive otherwise |
| DtlsConn.CheckTimer | modules/dtls_gw/rtpp_dtls_conn.c:662-688 | with a retransmission pending, a recorded timer is kept or a new one is scheduled, and failure (-1) happens exactly when none can be scheduled; with nothing pending the recorded timer is cancelled; nothing else in the connection changes |
| DtlsConn.TlsAccept | modules/dtls_gw/rtpp_dtls_conn.c:602-632 | fails exactly when the TLS step fails or the timer cannot be scheduled; a TLS failure leaves the connection unchanged, otherwise the timer is re-checked |
| DtlsConn.TlsConnect | modules/dtls_gw/rtpp_dtls_conn.c:690-719 | fails exactly when the TLS step fails; a timer-scheduling failure is not reported |
| DtlsConn.SetMode | modules/dtls_gw/rtpp_dtls_conn.c:271-325 | a query returns the current mode unchanged; a rejected role, digest or fingerprint length answers a mode error without changing the connection; a rejected SSRC answers a mode error after the fingerprint is stored; a request succeeds exactly when role, digest, fingerprint length and SSRC are accepted and, for the active role in INIT, the TLS step does not fail; a successful request stores the negotiated role, the fingerprint and the SSRC if one was given, and keeps the old SSRC otherwise; for the active role in INIT it moves to CONNECTING and opens the handshake, failing exactly when the TLS step fails, and the timer is the timer check's result unless that step failed; in every other case the timer is untouched; the SRTP contexts are untouched and validity is kept |
| DtlsConn.InboundPolicy | modules/dtls_gw/rtpp_dtls_conn.c:343-348 | the inbound SRTP stream accepts any SSRC exactly when the stored peer SSRC is 0 (none was given, or an explicit "0"), and otherwise only that SSRC |
| DtlsConn.Complete | modules/dtls_gw/rtpp_dtls_conn.c:404-446 | after the handshake the connection is UP exactly when keys are available, the peer fingerprint matches and both SRTP contexts are created, and DEAD otherwise; in UP the outbound key is the local role's half and the inbound key the peer's |
| DtlsConn.DtlsRecv | modules/dtls_gw/rtpp_dtls_conn.c:358-449 | DEAD ignores packets; mode, fingerprint and SSRC never change; UP stays UP except that a queued record finding the engine out of its OK state kills it; in INIT or CONNECTING the connection goes UP exactly when the record is queued, the engine was not yet OK, the handshake step succeeds, the engine reaches OK and completion succeeds, with the local role's keys; it goes DEAD exactly when the step fails or the engine reaches OK but completion fails; it is CONNECTING in every other case; a record that is not queued, or finds the engine already OK, leaves the timer alone, and otherwise the step re-checks the timer unless the TLS step itself fails, so going DEAD does not cancel it; validity is kept |
| DtlsConnProps.DeadKeepsTimer | modules/dtls_gw/rtpp_dtls_conn.c:443-446 | a handshake step failing in the TLS engine makes the connection DEAD with its retransmission timer still recorded |
| DtlsConn.Timeout | modules/dtls_gw/rtpp_dtls_conn.c:634-660 | without a recorded timer nothing changes; otherwise the timer is forgotten, and outside CONNECTING nothing more happens; in CONNECTING the connection goes DEAD exactly when the retransmission fails or a still-needed timer cannot be scheduled, and a timer is recorded only if one was scheduled; only state and timer change |
| DtlsConn.RtpSend | modules/dtls_gw/rtpp_dtls_conn.c:451-473 | a plain RTP packet is forwarded exactly when the connection is UP and protection succeeds, and the forwarded packet is the protected one |
| DtlsConn.SrtpRecv | modules/dtls_gw/rtpp_dtls_conn.c:475-497 | an SRTP packet is forwarded exactly when the connection is UP and unprotection succeeds, and the forwarded packet is the unprotected one |
| DtlsConnProps.RecvAll | modules/dtls_gw/rtpp_dtls_conn.c:358-449 | over any packet sequence the state only advances (INIT, CONNECTING, UP, DEAD), DEAD is final, and mode, fingerprint and validity are kept |
| DtlsConnProps.UpOnlyDies | modules/dtls_gw/rtpp_dtls_conn.c:389-392 | once UP, any packet sequence leaves the connection UP or DEAD with its contexts unchanged |
| DtlsConnProps.TimeoutMonotone | modules/dtls_gw/rtpp_dtls_conn.c:634-660 | a timeout never moves the state backwards and never touches the outbound context |
| DtlsConnProps.SameExportSameKeys | modules/dtls_gw/rtpp_dtls_conn.c:731-811 | two endpoints that negotiate the same profile and export the same bytes derive the same keys |
| DtlsConnProps.KeysAgree | modules/dtls_gw/rtpp_dtls_conn.c:426-435 | for an active and a passive endpoint sharing an export, each side's outbound key is the other side's inbound key |
| DtlsConnProps.MediaRoundTrip | modules/dtls_gw/rtpp_dtls_conn.c:451-497 | when protection is inverted by unprotection under the same key for every SSRC the receiving context admits, a packet sent by one UP endpoint is delivered unchanged by the other, provided the receiver configured no peer SSRC or the packet carries the one it configured |
| DtlsConnProps.ResendSameRoleAccepted | modules/dtls_gw/rtpp_dtls_conn.c:286-318 | after INIT, repeating the role already in force with an accepted digest, fingerprint and SSRC succeeds: the mode is answered again, the fingerprint is stored, and the state and timer stay as they were |
| DtlsConnProps.RoleFixedOnceStarted | modules/dtls_gw/rtpp_dtls_conn.c:287-292 | after a request makes the endpoint active and starts the handshake, a later request for the passive role is refused |
| DtlsConnProps.DeadKeepsOutboundContext | modules/dtls_gw/rtpp_dtls_conn.c:426-446 | an engine exists for which the connection goes DEAD yet keeps its outbound SRTP context |
| DtlsGw.IsDtlsPacket | modules/dtls_gw/rtpp_dtls_gw.c:463-474 | a packet is DTLS exactly when it is at least a record header long and its first byte is 20 to 63 |
| DtlsGw.RtpNeverDtls | modules/dtls_gw/rtpp_dtls_gw.c:463-474 | a packet shorter than a DTLS record header, or whose first byte is in the RTP/RTCP range 128..191, is never taken for DTLS |
| DtlsGw.VerbClass | modules/dtls_gw/rtpp_dtls_gw.c:258-281 | a one-letter verb selects what its letter names, case-blind: a active, p passive, s status, any other letter nothing; a longer verb selects what its first letter names whenever its second byte sets no bit the first lacks; a non-ASCII character among the first two selects nothing |
| DtlsGw.ParseCommand | modules/dtls_gw/rtpp_dtls_gw.c:252-294 | a command is accepted only with a known verb and a legal argument count; status takes no arguments; active or passive takes digest algorithm and fingerprint plus an optional SSRC |
| DtlsGw.OneLetterVerbs | modules/dtls_gw/rtpp_dtls_gw.c:258-281 | "a", "P" and "s" parse as active, passive and status |
| DtlsGw.SelectorQuirks | modules/dtls_gw/rtpp_dtls_gw.c:258-281 | "sa" is read as status and "active" is refused |
| DtlsGw.WrongArgCountRefused | modules/dtls_gw/rtpp_dtls_gw.c:252-256 | status with arguments and active with one argument are refused |
| DtlsGw.DataCtor | modules/dtls_gw/rtpp_dtls_gw.c:173-195 | an association exists exactly when both allocations succeed; it wraps a fresh connection and holds one module reference |
| DtlsGw.DataDtor | modules/dtls_gw/rtpp_dtls_gw.c:164-171 | destroying an association gives back exactly the module reference its construction took |
| DtlsGw.Publish | modules/dtls_gw/rtpp_dtls_gw.c:303-309 | the stream's slot ends up holding the racing association if there was one, otherwise the candidate; the losing candidate's module reference is returned; registry validity is kept |
| DtlsGw.AcquireSlot | modules/dtls_gw/rtpp_dtls_gw.c:296-310 | an existing association is reused unchanged; otherwise one is created and published or nothing changes on allocation failure; other streams are untouched; module references grow by the number of new associations |
| DtlsGw.FirstSpace | modules/dtls_gw/rtpp_dtls_gw.c:324-351 | the index returned is that of the first space, or the length if none |
| DtlsGw.StatusLine | modules/dtls_gw/rtpp_dtls_gw.c:324-351 | the status reply parses back into the mode and the local fingerprint |
| DtlsGw.Negotiate | modules/dtls_gw/rtpp_dtls_gw.c:311-351 | status answers the association's mode and the local fingerprint and changes nothing; a passive request fails without any change when the sender cannot be set up; past that check an active or passive request stores the connection mode negotiation returns and fails exactly when negotiation answers a mode error; on success the record holds the local role chosen for the peer's and the peer's fingerprint; only the command's stream may change; registry validity is kept |
| DtlsGw.Run | modules/dtls_gw/rtpp_dtls_gw.c:283-356 | an active or passive command succeeds exactly when the inbound stream's record is acquired and the sender check and mode negotiation accept it on that record, and then the record holds the chosen local role and the peer's fingerprint; only the command's stream may gain or change an association; identities of existing associations are kept; module references track new associations; set-peer requests send no reply |
| DtlsGw.HandleCommand | modules/dtls_gw/rtpp_dtls_gw.c:237-357 | a malformed command fails (-1) with no change; an active or passive command succeeds exactly when the inbound stream's record is acquired and accepts the request, leaving the chosen local role and the peer's fingerprint in it; only the command's stream is affected and the reference and validity invariants hold |
| DtlsGw.StatusReportsMode | modules/dtls_gw/rtpp_dtls_gw.c:324-351 | a status command on an existing association answers a line that parses to its mode and the local fingerprint |
| DtlsGw.SetPeerThenStatus | modules/dtls_gw/rtpp_dtls_gw.c:283-351 | after an active or passive command succeeds on a stream, a status command on that stream succeeds, changes nothing and reports the local role chosen for the peer's |
| DtlsGw.Classify | modules/dtls_gw/rtpp_dtls_gw.c:359-396 | a packet is claimed exactly when one of its streams has an association; inbound traffic is DTLS exactly when it looks like DTLS and SRTP otherwise; outbound traffic is RTP to be protected; the association used is the stream's own |
| DtlsGw.ShortPacketIsMedia | modules/dtls_gw/rtpp_dtls_gw.c:370-385 | an inbound packet too short for a DTLS record goes to the SRTP path |
| DtlsGw.Adjust | modules/dtls_gw/rtpp_dtls_gw.c:398-417 | taking or dropping a work item changes each object's reference count by the references the item holds on it |
| DtlsGw.Enqueue | modules/dtls_gw/rtpp_dtls_gw.c:398-417 | the packet is always taken; on success the item is appended and its references are held, on allocation failure nothing changes |
| DtlsGw.Dispatch | modules/dtls_gw/rtpp_dtls_gw.c:141-156 | each item is handed to the connection operation of its direction, with its own packet and connection |
| DtlsGw.Worker | modules/dtls_gw/rtpp_dtls_gw.c:129-162 | the worker dispatches the pending items in queue order, stops exactly on the shutdown marker, and releases exactly the references the items held |
| DtlsGw.EnqueueAll | modules/dtls_gw/rtpp_dtls_gw.c:398-417 | enqueuing a sequence of items appends them in order and holds all their references |
| DtlsGw.QueueBalance | modules/dtls_gw/rtpp_dtls_gw.c:129-162 | enqueuing items and then draining to the shutdown marker dispatches each item once, in order, and leaves every reference count as it was |
| DtlsGw.EnqueuedThenPending | modules/dtls_gw/rtpp_dtls_gw.c:398-417 | after enqueuing, the items before the shutdown marker are exactly those enqueued |
| HashTable.EmptyTable | src/rtpp_hash_table.c:99-126 | a new table is valid for any hash and holds no entries |
| HashTable.FirstMatch | src/rtpp_hash_table.c:393-400 | the chain walk stops at the first entry with the key, or at the end |
| HashTable.Append | src/rtpp_hash_table.c:221-293 | an entry is linked exactly when allocation succeeds and the no-duplicates flag does not find the key; a duplicate aborts exactly when the abort flag is set; a linked entry goes to the tail of its chain and adds one to the count; validity is kept |
| HashTable.AppendRefcnt | src/rtpp_hash_table.c:295-308 | the value gains exactly one reference when it is linked or the process aborts, and no other count changes |
| HashTable.Find | src/rtpp_hash_table.c:382-407 | a value is found exactly when the key's chain holds the key; it is the first match's value and gains one reference; a miss changes no count |
| HashTable.RemoveAt | src/rtpp_hash_table.c:310-331 | only the one entry leaves its chain, the count drops by one, "last" is reported exactly when the table becomes empty, and validity is kept |
| HashTable.Remove | src/rtpp_hash_table.c:333-349 | the given entry leaves its chain and its value loses one reference |
| HashTable.RemoveByKey | src/rtpp_hash_table.c:351-380 | a value is removed exactly when the key is present; it is the first match, leaves the chain and the table's reference on it is released; "last" means the table became empty; a miss changes nothing |
| HashTable.GetLength | src/rtpp_hash_table.c:484-495 | the length is the total number of entries in all chains |
| HashTable.ScanChainFollowsVerdicts | src/rtpp_hash_table.c:428-441 | a chain scan reaches every entry up to and including the first selected one whose callback answers break, or all of them; an entry is unlinked exactly when it was reached, selected and answered delete; the callback's final state is the one the reached entries leave |
| HashTable.ScanBucketsInOrder | src/rtpp_hash_table.c:426-442 | each bucket's chain is scanned, in bucket order, starting from the callback state the buckets before it left |
| HashTable.Foreach | src/rtpp_hash_table.c:411-447 | an empty table is left alone without calling back; otherwise the chains left and the entries deleted are those the bucket-by-bucket scan keeps and unlinks, the callback's final state is the scan's, the kept and deleted entries together are exactly the original entries, the count drops by the deletions, "last" means something was deleted and the table became empty, each deleted value loses one reference, and validity is kept |
| HashTable.ForeachKey | src/rtpp_hash_table.c:449-482 | only the key's chain changes; on a non-empty chain the chain left and the entries deleted are those the keyed chain scan keeps and unlinks and the callback's final state is the scan's; only entries with the key are deleted, kept and deleted together are the original chain, the count drops by the deletions, and each deleted value loses one reference |
| HashTable.Purge | src/rtpp_hash_table.c:497-516 | purge reports the number of entries, empties every chain, keeps validity and releases one reference of every entry's value |
| HashTable.PurgeDropsAll | src/rtpp_hash_table.c:497-516 | deleting every entry through `foreach` leaves all chains empty and counts each entry once |
| HashTable.FindAfterAppend | src/rtpp_hash_table.c:264-290 | after a successful append of a new key, find returns the appended value |
| HashTable.FindAfterDuplicateAppend | src/rtpp_hash_table.c:264-290 | without no-duplicates, appending a key already present does not change what find returns |
| HashTable.AppendThenRemoveByKey | src/rtpp_hash_table.c:351-380 | removing a key just appended to a table without it returns the appended value and gives back the original table |
| HashTable.RemoveByKeyThenFind | src/rtpp_hash_table.c:351-380 | with no-duplicates, find misses a key just removed |
| HashTable.ForeachVisitsAll | src/rtpp_hash_table.c:426-442 | a callback that only records visits sees every value, bucket by bucket in chain order, and changes nothing |
| HashTable.BreakEndsOnlyChain | src/rtpp_hash_table.c:438-440 | a callback that always breaks sees exactly the head of each non-empty chain |
| HashTable.ForeachKeyVisitsMatches | src/rtpp_hash_table.c:463-481 | a recording callback under `foreach_key` sees exactly the values whose key matches, in chain order |
| HashTable.ChainWithoutDelete | src/rtpp_hash_table.c:428-441 | a callback that never answers delete keeps every entry of a chain |
| HashTable.ChainDeletingAll | src/rtpp_hash_table.c:428-441 | a callback that always answers delete and never break unlinks every entry of a chain |
| HashTable.ForeachWithoutDelete | src/rtpp_hash_table.c:411-447 | whatever the callback computes, if it never answers delete the traversal leaves the table and every reference count as they were and does not report "last" |
| HashTable.ForeachDeletingAll | src/rtpp_hash_table.c:411-447 | whatever state the callback threads, if it always answers delete and never break the traversal unlinks every entry in traversal order, empties every chain, and reports "last" exactly when the table was not empty |
| ChainLinks.Unlink | src/rtpp_hash_table.c:310-331 | unlinking keeps the set of nodes; the head moves to the successor exactly when the entry had no predecessor |
| ChainLinks.UnlinkRepresents | src/rtpp_hash_table.c:314-327 | unlinking any entry of a well-linked chain leaves the links of the chain without that entry |
| ChainLinks.LinkTail | src/rtpp_hash_table.c:264-288 | linking a new entry after the last one leaves the links of the chain with the entry appended |
| ChainLinks.FindFirst | src/rtpp_hash_table.c:393-400 | the walk answers the first matching entry in chain order, or nothing exactly when no entry matches |
| StaticModules.FirstNamed | src/rtpp_module_if_static.c:44-54 | the answer is the first live descriptor with the name, or nothing exactly when no live descriptor has it |
| StaticModules.Lookup | src/rtpp_module_if_static.c:44-54 | the scan up to the terminator answers what the reference lookup answers |
| StaticModules.ModulesTerminated | src/rtpp_module_if_static.c:37-42 | the table holds four descriptors and then its terminator |
| StaticModules.EachModuleFound | src/rtpp_module_if_static.c:37-52 | each built-in module is found under its own name |
| StaticModules.DtlsGwFound | modules/dtls_gw/rtpp_dtls_gw.c:117 | the gateway module is found under the name it registers |
| StaticModules.UnknownNameNotFound | src/rtpp_module_if_static.c:53 | a name no built-in module carries resolves to nothing |

## Left out

- I/O is not modelled: sockets, the memory BIO shim that carries DTLS records (`modules/dtls_gw/rtpp_dtls_conn.c:499-583`) and packet transmission. These are library and kernel calls.
- The TLS and SRTP library internals are not modelled. Each step's answers are an `Engine` parameter, and protect and unprotect are function parameters.
- `setup_sender` (`modules/dtls_gw/rtpp_dtls_gw.c:197-235`) is reduced to its outcome, the `senderOk` parameter. It configures the stream's sender socket.
- Locks, atomics, the worker thread and its wake-up are not modelled. The compare-and-swap that publishes an association is a sequential "set if empty", and a concurrent winner is the `raced` parameter.
- The Pearson hash of the table is the parameter `h`. Its shuffle at construction uses randomness.
- String keys are compared by equality. `strcmp` on NUL-free keys agrees with that.
- Reference counting is modelled as counts per value, object or module. Object destruction is not modelled. The module constructor and destructor and the hash table destructor (`src/rtpp_hash_table.c:128-153`) are not modelled: they only allocate or free.
- DtlsConn.Complete: when profile 3 or 4 (an F8 suite) is negotiated, the source calls the suite's policy initialiser, which the F8 rows do not have (`modules/dtls_gw/rtpp_dtls_conn.c:104-109`, called at 336-337), so it calls through a null pointer. The model does not represent that crash: creating the contexts is left to the engine's `outCreated` and `inCreated` answers.
- The AES-GCM profiles 7 and 8 are mapped only when the SRTP library defines them (`#ifdef` at `modules/dtls_gw/rtpp_dtls_conn.c:766` and 772). The model assumes they are compiled in; without them those profiles abort like any unknown one.
- Logging is not modelled. The response buffer of the status reply is assumed large enough, so its truncation by `strlcpy` is not modelled.
- Packet ownership is modelled only through reference counts. When `enqueue` cannot allocate a work item, it reports the packet as taken without queueing it or taking a reference. What becomes of the packet after that is outside this model.
- Keying.TlsSrtpKeyinfo: requires the export to have the requested length and leaves the abort on an unmapped profile as a result value rather than a process exit.
- DtlsGw.ParseCommand: requires a non-empty verb whenever the argument count is legal, and so do `DtlsGw.HandleCommand` and `DtlsGw.SetPeerThenStatus`. The source reads the verb's second byte (`modules/dtls_gw/rtpp_dtls_gw.c:258`), which for an empty verb lies past the terminator; that read is undefined, so the model does not describe it.
- DtlsConn.DtlsRecv: requires the engine's answers to fit (`EngineFits`): the exported keying material matches the negotiated suite, and a negotiated profile is one the suite table maps. The source gets both from the TLS library, which negotiates only the profiles it was offered. The second condition excludes the abort on an unmapped profile (`modules/dtls_gw/rtpp_dtls_conn.c:778-779`) from this operation; `Keying.TlsSrtpKeyinfo` models that abort.
- DtlsGw.VerbClass: a verb is a string of characters, while the source reads the bytes of its UTF-8 form. `CByte` gives a non-ASCII character the lead byte of its encoding; that byte has its top bit set, which is all the selector needs. A second byte that adds bits is described only through the selector (`SelectorQuirks` shows "active" refused).
- DtlsConn.SetMode: the fingerprint length check counts characters, while `strlen` at `modules/dtls_gw/rtpp_dtls_conn.c:298` counts bytes. The two agree on ASCII fingerprints; a fingerprint with non-ASCII characters can pass here and be refused by the source.
- StaticModules.ModulesTerminated: module names other than `dtls_gw` are taken to equal the table's field names. Their descriptors are defined in files that are not part of this model.
- Some constants come from headers that are not part of this model:
  - the fingerprint digest is "sha-256";
  - a fingerprint string is 95 characters (32 bytes in colon-separated hex);
  - the "no SSRC" value is 0;
  - `unsigned long` has 64 bits;
  - the profile identifiers are those of RFC 5764 section 4.1.2 and RFC 7714 section 14.2.

=== FILE: chain_links.dfy ===
/**
 * The pointer level of one hash-table chain: a head pointer and entries
 * doubly linked through `next` and `prev`. The sequence view used by
 * HashTable is justified here: linking at the tail and unlinking any entry
 * keep the links an exact image of the sequence with that entry added or
 * taken out.
 */
module ChainLinks {
  import opened Common

  /** Entry addresses; absent pointers are `None`. */
  type Ptr = nat

  datatype Node = Node(next: Option<Ptr>, prev: Option<Ptr>)

  datatype Links = Links(head: Option<Ptr>, nodes: map<Ptr, Node>)

  /** The successor of position `i` of `c`, as the links should record it. */
  function After(c: seq<Ptr>, i: nat): Option<Ptr> {
    if i + 1 < |c| then Some(c[i + 1]) else None
  }

  function Before(c: seq<Ptr>, i: nat): Option<Ptr>
    requires i <= |c|
  {
    if 0 < i then Some(c[i - 1]) else None
  }

  predicate Distinct(c: seq<Ptr>) {
    forall i, j :: 0 <= i < j < |c| ==> c[i] != c[j]
  }

  /** `l` links exactly the entries of `c`, in order, each once. */
  predicate Represents(l: Links, c: seq<Ptr>) {
    && (forall i :: 0 <= i < |c| ==> c[i] in l.nodes)
    && Distinct(c)
    && l.head == (if |c| == 0 then None else Some(c[0]))
    && (forall i :: 0 <= i < |c| ==> l.nodes[c[i]].next == After(c, i))
    && (forall i :: 0 <= i < |c| ==> l.nodes[c[i]].prev == Before(c, i))
  }

  /**
   * Unlinking entry `p`: a predecessor takes over its successor, otherwise
   * the head moves to the successor; the successor, if any, points back
   * to the predecessor or to nothing.
   */
  function Unlink(l: Links, p: Ptr): (r: Links)
    requires p in l.nodes
    requires l.nodes[p].prev.Some? ==> l.nodes[p].prev.value in l.nodes
    requires l.nodes[p].next.Some? ==> l.nodes[p].next.value in l.nodes
    ensures r.nodes.Keys == l.nodes.Keys
    ensures l.nodes[p].prev.None? ==> r.head == l.nodes[p].next
    ensures l.nodes[p].prev.Some? ==> r.head == l.head
  {
    var sp := l.nodes[p];
    if sp.prev.Some? then
      var q := sp.prev.value;
      var n1 := l.nodes[q := l.nodes[q].(next := sp.next)];
      var n2 := if sp.next.Some? then n1[sp.next.value := n1[sp.next.value].(prev := sp.prev)] else n1;
      Links(l.head, n2)
    else
      var n2 := if sp.next.Some? then l.nodes[sp.next.value := l.nodes[sp.next.value].(prev := None)] else l.nodes;
      Links(sp.next, n2)
  }

  /** How unlinking position `i` changes the node at another position `k`. */
  lemma UnlinkNode(l: Links, c: seq<Ptr>, i: nat, k: nat)
    requires Represents(l, c) && i < |c| && k < |c| && k != i
    ensures c[k] in Unlink(l, c[i]).nodes
    ensures Unlink(l, c[i]).nodes[c[k]] ==
              if k + 1 == i then l.nodes[c[k]].(next := After(c, i))
              else if k == i + 1 then l.nodes[c[k]].(prev := Before(c, i))
              else l.nodes[c[k]]
  {
    var p, x := c[i], c[k];
    var sp := l.nodes[p];
    assert sp.prev == Before(c, i) && sp.next == After(c, i);
    assert x != p;
    var r := Unlink(l, p);
    if 0 < i {
      var q := c[i - 1];
      var n1 := l.nodes[q := l.nodes[q].(next := sp.next)];
      if i + 1 < |c| {
        var s := c[i + 1];
        assert q != s;
        assert r.nodes == n1[s := n1[s].(prev := sp.prev)];
        if k + 1 == i {
          assert x == q;
        } else if k == i + 1 {
          assert x == s;
        } else {
          assert x != q && x != s;
        }
      } else {
        assert r.nodes == n1;
        if k + 1 != i {
          assert x != q;
        }
      }
    } else if i + 1 < |c| {
      var s := c[i + 1];
      assert r.nodes == l.nodes[s := l.nodes[s].(prev := None)];
      if k != i + 1 {
        assert x != s;
      }
    }
  }

  /** After unlinking, every remaining entry points forward at its new successor. */
  lemma UnlinkNext(l: Links, c: seq<Ptr>, i: nat, k: nat)
    requires Represents(l, c) && i < |c| && k < |c| - 1
    ensures var d := c[..i] + c[i + 1..];
            d[k] in Unlink(l, c[i]).nodes && Unlink(l, c[i]).nodes[d[k]].next == After(d, k)
  {
    var d := c[..i] + c[i + 1..];
    if k < i {
      assert d[k] == c[k];
      UnlinkNode(l, c, i, k);
      if k + 1 < i {
        assert d[k + 1] == c[k + 1];
      } else if k + 1 < |d| {
        assert d[k + 1] == c[k + 2];
      }
    } else {
      assert d[k] == c[k + 1];
      UnlinkNode(l, c, i, k + 1);
      if k + 1 < |d| {
        assert d[k + 1] == c[k + 2];
      }
    }
  }

  /** After unlinking, every remaining entry points back at its new predecessor. */
  lemma UnlinkPrev(l: Links, c: seq<Ptr>, i: nat, k: nat)
    requires Represents(l, c) && i < |c| && k < |c| - 1
    ensures var d := c[..i] + c[i + 1..];
            d[k] in Unlink(l, c[i]).nodes && Unlink(l, c[i]).nodes[d[k]].prev == Before(d, k)
  {
    var d := c[..i] + c[i + 1..];
    if k < i {
      assert d[k] == c[k];
      UnlinkNode(l, c, i, k);
      if 0 < k {
        assert d[k - 1] == c[k - 1];
      }
    } else {
      assert d[k] == c[k + 1];
      UnlinkNode(l, c, i, k + 1);
      if i < k {
        assert d[k - 1] == c[k];
      } else if 0 < k {
        assert d[k - 1] == c[k - 1];
      }
    }
  }

  lemma DropKeepsDistinct(c: seq<Ptr>, i: nat)
    requires Distinct(c) && i < |c|
    ensures Distinct(c[..i] + c[i + 1..])
  {
    var d := c[..i] + c[i + 1..];
    forall a, b | 0 <= a < b < |d| ensures d[a] != d[b] {
      assert d[a] == c[if a < i then a else a + 1];
      assert d[b] == c[if b < i then b else b + 1];
    }
  }

  /** Unlinking the entry at position `i` leaves the links of the chain without it. */
  lemma UnlinkRepresents(l: Links, c: seq<Ptr>, i: nat)
    requires Represents(l, c) && i < |c|
    ensures l.nodes[c[i]].prev.Some? ==> l.nodes[c[i]].prev.value in l.nodes
    ensures l.nodes[c[i]].next.Some? ==> l.nodes[c[i]].next.value in l.nodes
    ensures Represents(Unlink(l, c[i]), c[..i] + c[i + 1..])
  {
    var d := c[..i] + c[i + 1..];
    var r := Unlink(l, c[i]);
    forall k | 0 <= k < |d|
      ensures d[k] in r.nodes && r.nodes[d[k]].next == After(d, k) && r.nodes[d[k]].prev == Before(d, k)
    {
      UnlinkNext(l, c, i, k);
      UnlinkPrev(l, c, i, k);
    }
    DropKeepsDistinct(c, i);
    if |d| > 0 {
      assert d[0] == c[if i == 0 then 1 else 0];
    }
  }

  /**
   * Linking a fresh, zeroed entry `p` behind the last entry of the chain:
   * walk from the head to the entry with no successor, point it at `p`
   * and `p` back at it; an empty chain gets `p` as its head.
   */
  method LinkTail(l: Links, p: Ptr, ghost c: seq<Ptr>) returns (r: Links)
    requires Represents(l, c) && p !in c
    ensures Represents(r, c + [p])
    ensures r.nodes.Keys == l.nodes.Keys + {p}
  {
    if l.head.None? {
      return Links(Some(p), l.nodes[p := Node(None, None)]);
    }
    var tsp := l.head.value;
    var tsp1 := l.nodes[tsp].next;
    ghost var k := 0;
    while tsp1.Some?
      invariant 0 <= k < |c| && tsp == c[k] && tsp1 == After(c, k)
      decreases |c| - k
    {
      tsp := tsp1.value;
      k := k + 1;
      tsp1 := l.nodes[tsp].next;
    }
    assert k == |c| - 1;
    var nodes := l.nodes[tsp := l.nodes[tsp].(next := Some(p))][p := Node(None, Some(tsp))];
    r := Links(l.head, nodes);
    var d := c + [p];
    forall j | 0 <= j < |d|
      ensures d[j] in r.nodes && r.nodes[d[j]].next == After(d, j) && r.nodes[d[j]].prev == Before(d, j)
    {
      if j < |c| {
        assert d[j] == c[j] && c[j] != p;
        if j < k {
          assert c[j] != tsp;
        }
      }
    }
    assert Distinct(d);
  }

  /**
   * The lookup walk: from the head along `next` to the first entry that
   * `matches` accepts, or nothing at the end of the chain.
   */
  method FindFirst(l: Links, matches: Ptr -> bool, ghost c: seq<Ptr>) returns (r: Option<Ptr>)
    requires Represents(l, c)
    ensures r.None? <==> forall i :: 0 <= i < |c| ==> !matches(c[i])
    ensures r.Some? ==> exists i :: 0 <= i < |c| && c[i] == r.value && matches(c[i]) &&
                                    forall j :: 0 <= j < i ==> !matches(c[j])
  {
    var cur := l.head;
    ghost var k := 0;
    while cur.Some?
      invariant 0 <= k <= |c|
      invariant cur == (if k < |c| then Some(c[k]) else None)
      invariant forall j :: 0 <= j < k ==> !matches(c[j])
      decreases |c| - k
    {
      if matches(cur.value) {
        return cur;
      }
      cur := l.nodes[cur.value].next;
      k := k + 1;
    }
    return None;
  }
}

=== FILE: common.dfy ===
/** Shared vocabulary: optional values, bytes and fixed-width integers. */
module Common {

  /** A value that may be absent; stands in for a nullable C pointer. */
  datatype Option<+T> = None | Some(value: T)

  /** An octet, as carried in packet buffers and key material. */
  type Byte = x: int | 0 <= x < 256

  /** A `uint32_t`. */
  type U32 = x: int | 0 <= x < 0x1_0000_0000

  const U32Modulus: int := 0x1_0000_0000

  /** A buffer of `n` zero bytes. */
  function Zeros(n: nat): (r: seq<Byte>)
    ensures |r| == n
    ensures forall i :: 0 <= i < n ==> r[i] == 0
  {
    if n == 0 then [] else Zeros(n - 1) + [0]
  }

  predicate AllZero(s: seq<Byte>) {
    forall i :: 0 <= i < |s| ==> s[i] == 0
  }
}

=== FILE: dtls_conn.dfy ===
/**
 * One DTLS-SRTP association: the INIT/CONNECTING/UP/DEAD state machine,
 * local role selection (section 4 of RFC 4145 as used by section 5 of
 * RFC 5763), the retransmission-timer policy and the media gate.
 *
 * The TLS engine and libsrtp are oracles: each step receives the answers
 * they gave (`Engine`, `SslResult`, `TimerQuery`) and the SRTP transforms
 * are function parameters. The connection lock is implicit: every
 * function here is one critical section.
 */
module DtlsConn {
  import opened Common
  import opened Suites
  import opened Keying
  import opened SsrcParse

  datatype State = Init | Connecting | Up | Dead

  /** Negotiated role; ModErr is the error value `setmode` returns. */
  datatype Mode = ActPass | Active | Passive | ModErr

  /** The only fingerprint algorithm the module supports. */
  const DigestAlg: string := "sha-256"

  /** Length of a SHA-256 fingerprint as colon-separated hex pairs. */
  const FingerprintStrLen: nat := 95

  /** The SSRC value that means "no SSRC configured". */
  const SsrcBad: U32 := 0

  type TimerId = nat

  datatype SsrcPolicy = AnyInbound | Specific(ssrc: U32)

  /** An SRTP context as created: suite, key-plus-salt string, SSRC filter. */
  datatype SrtpCtx = SrtpCtx(suite: SuiteId, key: seq<Byte>, ssrc: SsrcPolicy)

  datatype Conn = Conn(
    state: State,
    mode: Mode,
    fingerprint: string,       // "algorithm digest" expected of the peer; "" skips the check
    ssrc: U32,                 // inbound SSRC filter, SsrcBad when none
    timer: Option<TimerId>,    // the pending retransmission timer
    srtpOut: Option<SrtpCtx>,
    srtpIn: Option<SrtpCtx>)

  /** Invariant every reachable connection keeps. */
  predicate Valid(c: Conn) {
    && c.mode != ModErr
    && (c.state == Up ==> c.srtpOut.Some? && c.srtpIn.Some?)
    && (c.state == Init || c.state == Connecting ==> c.srtpOut.None? && c.srtpIn.None?)
    && (c.state == Init ==> c.timer.None?)
    && (c.mode == Active ==> c.state != Init)
    && (c.fingerprint == "" || |c.fingerprint| == |DigestAlg| + 1 + FingerprintStrLen)
  }

  /** A freshly constructed connection. */
  function NewConn(): (c: Conn)
    ensures Valid(c)
    ensures c.state == Init && c.mode == ActPass && c.timer.None?
    ensures c.fingerprint == "" && c.ssrc == SsrcBad
    ensures c.srtpOut.None? && c.srtpIn.None?
  {
    Conn(Init, ActPass, "", SsrcBad, None, None, None)
  }

  /** Local role for the role the peer offers; exactly one side is active. */
  function PickMode(peer: Mode): (r: Mode)
    requires peer != ModErr
    ensures r == Active || r == Passive
    ensures r == Active <==> peer == Passive
  {
    match peer
    case ActPass => Passive
    case Active => Passive
    case Passive => Active
  }

  /** What the signalling peer sent: role, fingerprint algorithm and digest, optional SSRC. */
  datatype PeerSpec = PeerSpec(peerMode: Mode, algorithm: string, fingerprint: string, ssrc: Option<string>)

  /** `SSL_get_error` classes the handshake step distinguishes. */
  datatype SslError = ErrWantRead | ErrOther(code: int)

  /** Return value of `SSL_accept`/`SSL_connect` and the error it maps to. */
  datatype SslResult = SslResult(ret: int, error: SslError)

  /** A handshake step that is neither progress nor a wait for more input. */
  predicate SslFailed(s: SslResult) {
    s.ret <= 0 && s.error != ErrWantRead
  }

  /** `DTLSv1_get_timeout` reported a deadline; what scheduling a timer returned. */
  datatype TimerQuery = TimerQuery(pending: bool, scheduled: Option<TimerId>)

  datatype TimerStep = TimerStep(conn: Conn, rc: int, cancelled: Option<TimerId>)

  /**
   * Retransmission-timer policy: keep an existing timer while a deadline
   * is pending, schedule one when none exists, cancel it when no deadline
   * is pending. On success the connection holds a timer iff a deadline is
   * pending; only the timer field changes.
   */
  function CheckTimer(c: Conn, q: TimerQuery): (r: TimerStep)
    ensures r.conn == c.(timer := r.conn.timer)
    ensures r.rc == 0 || r.rc == -1
    ensures r.rc == -1 <==> q.pending && c.timer.None? && q.scheduled.None?
    ensures q.pending && c.timer.Some? ==> r.conn.timer == c.timer && r.cancelled.None?
    ensures q.pending && c.timer.None? ==> r.conn.timer == q.scheduled && r.cancelled.None?
    ensures !q.pending ==> r.conn.timer.None? && r.cancelled == c.timer
    ensures r.rc == 0 ==> (r.conn.timer.Some? <==> q.pending)
  {
    if q.pending && c.timer.Some? then TimerStep(c, 0, None)
    else if q.pending then
      TimerStep(c.(timer := q.scheduled), if q.scheduled.None? then -1 else 0, None)
    else if c.timer.Some? then TimerStep(c.(timer := None), 0, c.timer)
    else TimerStep(c, 0, None)
  }

  datatype StepResult = StepResult(conn: Conn, rc: int)

  /** Passive handshake step: a failed step or a failed timer reschedule is an error. */
  function TlsAccept(c: Conn, ssl: SslResult, q: TimerQuery): (r: StepResult)
    ensures r.rc == 0 || r.rc == -1
    ensures r.rc == -1 <==> SslFailed(ssl) || (q.pending && c.timer.None? && q.scheduled.None?)
    ensures SslFailed(ssl) ==> r.conn == c
    ensures !SslFailed(ssl) ==> r.conn == CheckTimer(c, q).conn
  {
    if SslFailed(ssl) then StepResult(c, -1)
    else
      var t := CheckTimer(c, q);
      StepResult(t.conn, if t.rc != 0 then -1 else 0)
  }

  /** Active handshake step: only the handshake step itself can fail; the timer result is ignored. */
  function TlsConnect(c: Conn, ssl: SslResult, q: TimerQuery): (r: StepResult)
    ensures r.rc == 0 || r.rc == -1
    ensures r.rc == -1 <==> SslFailed(ssl)
    ensures SslFailed(ssl) ==> r.conn == c
    ensures !SslFailed(ssl) ==> r.conn == CheckTimer(c, q).conn
  {
    if SslFailed(ssl) then StepResult(c, -1)
    else StepResult(CheckTimer(c, q).conn, 0)
  }

  /** What the handshake engine answers when `setmode` opens the handshake. */
  datatype HandshakeStart = HandshakeStart(ssl: SslResult, timer: TimerQuery)

  datatype ModeResult = ModeResult(conn: Conn, mode: Mode)

  /** The role, algorithm and length checks of `setmode`, in order. */
  predicate RoleAllowed(c: Conn, p: PeerSpec)
    requires p.peerMode != ModErr
  {
    PickMode(p.peerMode) == c.mode || c.state == Init
  }

  predicate SpecAccepted(c: Conn, p: PeerSpec)
    requires p.peerMode != ModErr
  {
    RoleAllowed(c, p) && p.algorithm == DigestAlg && |p.fingerprint| == FingerprintStrLen
  }

  predicate SsrcAccepted(p: PeerSpec) {
    p.ssrc.None? || ParseSsrc(p.ssrc.value).Some?
  }

  /**
   * Mode negotiation. Without a peer spec it only reports the mode. A
   * role change after INIT, a foreign algorithm or a wrong fingerprint
   * length answer ModErr and change nothing. Past those checks the
   * fingerprint is stored even if the SSRC is then rejected. Resolving to
   * ACTIVE in INIT moves to CONNECTING and opens the handshake; the mode
   * is committed only when everything succeeded.
   */
  function SetMode(c: Conn, spec: Option<PeerSpec>, start: HandshakeStart): (r: ModeResult)
    requires spec.Some? ==> spec.value.peerMode != ModErr
    ensures spec.None? ==> r == ModeResult(c, c.mode)
    ensures spec.Some? && !SpecAccepted(c, spec.value) ==> r == ModeResult(c, ModErr)
    ensures spec.Some? && SpecAccepted(c, spec.value) ==>
              r.conn.fingerprint == spec.value.algorithm + " " + spec.value.fingerprint
    ensures spec.Some? && SpecAccepted(c, spec.value) && !SsrcAccepted(spec.value) ==>
              r.mode == ModErr && r.conn == c.(fingerprint := r.conn.fingerprint)
    ensures r.mode != ModErr && spec.Some? ==>
              && r.mode == PickMode(spec.value.peerMode)
              && r.conn.mode == r.mode
              && (spec.value.ssrc.Some? ==> r.conn.ssrc == ParseSsrc(spec.value.ssrc.value).value)
    ensures spec.Some? ==>
              (r.mode != ModErr <==>
                 && SpecAccepted(c, spec.value) && SsrcAccepted(spec.value)
                 && !(PickMode(spec.value.peerMode) == Active && c.state == Init && SslFailed(start.ssl)))
    ensures r.mode == ModErr ==> r.conn.mode == c.mode
    ensures spec.None? || spec.value.ssrc.None? ==> r.conn.ssrc == c.ssrc
    ensures !(spec.Some? && SpecAccepted(c, spec.value) && SsrcAccepted(spec.value)
              && PickMode(spec.value.peerMode) == Active && c.state == Init) ==>
              r.conn.timer == c.timer
    ensures r.conn.state != c.state ==>
              && spec.Some? && c.state == Init && r.conn.state == Connecting
              && PickMode(spec.value.peerMode) == Active
    ensures spec.Some? && SpecAccepted(c, spec.value) && SsrcAccepted(spec.value)
            && PickMode(spec.value.peerMode) == Active && c.state == Init ==>
              && r.conn.state == Connecting && (r.mode == ModErr <==> SslFailed(start.ssl))
              && r.conn.timer == (if SslFailed(start.ssl) then c.timer else CheckTimer(c, start.timer).conn.timer)
    ensures r.conn.srtpOut == c.srtpOut && r.conn.srtpIn == c.srtpIn
    ensures Valid(c) ==> Valid(r.conn)
  {
    if spec.None? then ModeResult(c, c.mode)
    else
      var p := spec.value;
      var myMode := PickMode(p.peerMode);
      if myMode != c.mode && c.state != Init then ModeResult(c, ModErr)
      else if p.algorithm != DigestAlg then ModeResult(c, ModErr)
      else if |p.fingerprint| != FingerprintStrLen then ModeResult(c, ModErr)
      else
        var c1 := c.(fingerprint := p.algorithm + " " + p.fingerprint);
        if p.ssrc.Some? && ParseSsrc(p.ssrc.value).None? then ModeResult(c1, ModErr)
        else
          var c2 := if p.ssrc.Some? then c1.(ssrc := ParseSsrc(p.ssrc.value).value) else c1;
          if myMode == Active && c2.state == Init then
            var step := TlsConnect(c2.(state := Connecting), start.ssl, start.timer);
            if step.rc != 0 then ModeResult(step.conn, ModErr)
            else ModeResult(step.conn.(mode := myMode), myMode)
          else ModeResult(c2.(mode := myMode), myMode)
  }

  /**
   * Everything the TLS engine and libsrtp answer during one inbound
   * handshake record.
   */
  datatype Engine = Engine(
    bioWriteOk: bool,                 // the record was queued into the inbound memory BIO
    okBefore: bool,                   // the engine was in its OK state before the step
    ssl: SslResult,                   // SSL_accept / SSL_connect
    timer: TimerQuery,                // DTLSv1_get_timeout and the timer it scheduled
    okAfter: bool,                    // the engine reached its OK state during the step
    profile: Option<nat>,             // the negotiated SRTP protection profile
    exported: Option<seq<Byte>>,      // SSL_export_keying_material
    keymatBuf: seq<Byte>,             // prior contents of the 256-byte export buffer
    peerFingerprint: Option<string>,  // digest of the peer certificate, "algorithm digest"
    outCreated: bool,                 // srtp_create for the outbound context
    inCreated: bool)                  // srtp_create for the inbound context

  /** Answers a real engine can give: it negotiates only profiles it was offered. */
  predicate EngineFits(e: Engine) {
    && |e.keymatBuf| == KeymatBufLen
    && (e.profile.Some? ==> ProfileSuite(e.profile.value).Some?)
    && ExportFits(e.profile, e.exported)
  }

  /** An SRTP context's filter lets through a packet carrying SSRC `s`. */
  predicate Admits(p: SsrcPolicy, s: U32) {
    p.AnyInbound? || p.ssrc == s
  }

  function InboundPolicy(ssrc: U32): (p: SsrcPolicy)
    ensures p.AnyInbound? <==> ssrc == SsrcBad
    ensures !p.AnyInbound? ==> p == Specific(ssrc)
  {
    if ssrc == SsrcBad then AnyInbound else Specific(ssrc)
  }

  /** The peer certificate passes iff no fingerprint was advertised or they match. */
  predicate FingerprintAccepted(expected: string, peer: string) {
    expected == "" || expected == peer
  }

  /** The key material the engine exported, split per side. */
  function EngineKeys(e: Engine): KeyInfoResult
    requires EngineFits(e)
  {
    TlsSrtpKeyinfo(e.profile, e.exported, e.keymatBuf)
  }

  /** The handshake-completion checks, all of which must pass. */
  predicate CompletionSucceeds(c: Conn, e: Engine)
    requires EngineFits(e)
  {
    && EngineKeys(e).KeysReady?
    && e.peerFingerprint.Some?
    && FingerprintAccepted(c.fingerprint, e.peerFingerprint.value)
    && e.outCreated
    && e.inCreated
  }

  /** Outbound uses the client key when ACTIVE, inbound the other one. */
  function OutKey(mode: Mode, k: KeyInfo): seq<Byte> {
    if mode == Active then k.cliKey else k.srvKey
  }

  function InKey(mode: Mode, k: KeyInfo): seq<Byte> {
    if mode == Active then k.srvKey else k.cliKey
  }

  /** Key export, peer verification and context creation on handshake completion. */
  function Complete(c: Conn, e: Engine): (r: Conn)
    requires EngineFits(e)
    ensures r == c.(state := r.state, srtpOut := r.srtpOut, srtpIn := r.srtpIn)
    ensures r.state == Up <==> CompletionSucceeds(c, e)
    ensures r.state != Up ==> r.state == Dead
    ensures r.state == Up ==>
              var k := EngineKeys(e).info;
              && r.srtpOut == Some(SrtpCtx(k.suite, OutKey(c.mode, k), AnyInbound))
              && r.srtpIn == Some(SrtpCtx(k.suite, InKey(c.mode, k), InboundPolicy(c.ssrc)))
    ensures c.srtpOut.None? && c.srtpIn.None? && r.state == Dead && r.srtpOut.Some? ==>
              r.srtpIn.None? && e.outCreated && !e.inCreated
  {
    var ki := EngineKeys(e);
    if !ki.KeysReady? then c.(state := Dead)
    else if e.peerFingerprint.None? then c.(state := Dead)
    else if !FingerprintAccepted(c.fingerprint, e.peerFingerprint.value) then c.(state := Dead)
    else if !e.outCreated then c.(srtpOut := None, state := Dead)
    else
      var c1 := c.(srtpOut := Some(SrtpCtx(ki.info.suite, OutKey(c.mode, ki.info), InboundPolicy(SsrcBad))));
      if !e.inCreated then c1.(srtpIn := None, state := Dead)
      else c1.(srtpIn := Some(SrtpCtx(ki.info.suite, InKey(c.mode, ki.info), InboundPolicy(c.ssrc))), state := Up)
  }

  /** The handshake step of a record taken in CONNECTING succeeded. */
  predicate StepSucceeds(c: Conn, e: Engine) {
    if c.mode == Active then !SslFailed(e.ssl)
    else !SslFailed(e.ssl) && !(e.timer.pending && c.timer.None? && e.timer.scheduled.None?)
  }

  /**
   * An inbound handshake record. DEAD absorbs it; INIT first moves to
   * CONNECTING. A record that finds the engine outside its OK state kills
   * an UP connection; otherwise the handshake is stepped, an engine error
   * kills the connection, and completion either brings it UP or kills it.
   */
  function DtlsRecv(c: Conn, e: Engine): (r: Conn)
    requires EngineFits(e)
    ensures c.state == Dead ==> r == c
    ensures r.mode == c.mode && r.fingerprint == c.fingerprint && r.ssrc == c.ssrc
    ensures c.state != Dead ==> r.state != Init
    ensures c.state == Up ==> r == c.(state := r.state)
    ensures c.state == Up ==> (r.state == Dead <==> e.bioWriteOk && !e.okBefore)
    ensures c.state == Up ==> r.state == Up || r.state == Dead
    ensures (c.state == Init || c.state == Connecting) ==>
              (r.state == Up <==>
                 e.bioWriteOk && !e.okBefore && StepSucceeds(c, e) && e.okAfter && CompletionSucceeds(c, e))
    ensures (c.state == Init || c.state == Connecting) ==>
              (r.state == Dead <==>
                 e.bioWriteOk && !e.okBefore && (!StepSucceeds(c, e) || (e.okAfter && !CompletionSucceeds(c, e))))
    ensures (c.state == Init || c.state == Connecting) ==>
              (r.state == Connecting <==> !e.bioWriteOk || e.okBefore || (StepSucceeds(c, e) && !e.okAfter))
    ensures (c.state == Init || c.state == Connecting) && (!e.bioWriteOk || e.okBefore) ==> r.timer == c.timer
    ensures (c.state == Init || c.state == Connecting) && e.bioWriteOk && !e.okBefore ==>
              r.timer == (if SslFailed(e.ssl) then c.timer else CheckTimer(c, e.timer).conn.timer)
    ensures (c.state == Init || c.state == Connecting) && r.state == Up ==>
              var k := EngineKeys(e).info;
              && r.srtpOut == Some(SrtpCtx(k.suite, OutKey(c.mode, k), AnyInbound))
              && r.srtpIn == Some(SrtpCtx(k.suite, InKey(c.mode, k), InboundPolicy(c.ssrc)))
    ensures Valid(c) && (c.state == Init || c.state == Connecting) && r.state == Dead && r.srtpOut.Some? ==>
              r.srtpIn.None? && e.outCreated && !e.inCreated
    ensures Valid(c) ==> Valid(r)
  {
    if c.state == Dead then c
    else
      var c1 := if c.state == Init then c.(state := Connecting) else c;
      if !e.bioWriteOk then c1
      else if e.okBefore then c1
      else if c1.state == Up then c1.(state := Dead)
      else
        var step := if c1.mode == Active then TlsConnect(c1, e.ssl, e.timer) else TlsAccept(c1, e.ssl, e.timer);
        if step.rc != 0 then step.conn.(state := Dead)
        else if !e.okAfter then step.conn
        else Complete(step.conn, e)
  }

  /**
   * The retransmission-timer callback. With no timer recorded it does
   * nothing; otherwise it forgets the timer and, in CONNECTING only, lets
   * the engine retransmit: a failure there or in rescheduling kills the
   * connection.
   */
  function Timeout(c: Conn, handled: bool, q: TimerQuery): (r: Conn)
    ensures c.timer.None? ==> r == c
    ensures c.timer.Some? && c.state != Connecting ==> r == c.(timer := None)
    ensures r == c.(state := r.state, timer := r.timer)
    ensures c.timer.Some? && c.state == Connecting ==>
              && (r.state == Connecting || r.state == Dead)
              && (r.state == Dead <==> !handled || (q.pending && q.scheduled.None?))
              && (r.timer.Some? ==> handled && q.pending && r.timer == q.scheduled)
    ensures Valid(c) ==> Valid(r)
  {
    if c.timer.None? then c
    else
      var c1 := c.(timer := None);
      if c1.state != Connecting then c1
      else if handled then
        var t := CheckTimer(c1, q);
        if t.rc != 0 then t.conn.(state := Dead) else t.conn
      else c1.(state := Dead)
  }

  /** Where a transformed media packet goes. */
  datatype Side = EncryptedSide | PlainSide

  datatype Delivery = Dropped | Sent(side: Side, pkt: seq<Byte>)

  /** Outbound media: encrypted and sent towards the DTLS side, only in UP. */
  function RtpSend(c: Conn, pkt: seq<Byte>, protect: (SrtpCtx, seq<Byte>) -> Option<seq<Byte>>): (r: Delivery)
    requires Valid(c)
    ensures r.Sent? <==> c.state == Up && protect(c.srtpOut.value, pkt).Some?
    ensures r.Sent? ==> r.side == EncryptedSide && r.pkt == protect(c.srtpOut.value, pkt).value
  {
    if c.state != Up then Dropped
    else
      match protect(c.srtpOut.value, pkt)
      case None => Dropped
      case Some(out) => Sent(EncryptedSide, out)
  }

  /** Inbound SRTP: decrypted and sent towards the plain side, only in UP. */
  function SrtpRecv(c: Conn, pkt: seq<Byte>, unprotect: (SrtpCtx, seq<Byte>) -> Option<seq<Byte>>): (r: Delivery)
    requires Valid(c)
    ensures r.Sent? <==> c.state == Up && unprotect(c.srtpIn.value, pkt).Some?
    ensures r.Sent? ==> r.side == PlainSide && r.pkt == unprotect(c.srtpIn.value, pkt).value
  {
    if c.state != Up then Dropped
    else
      match unprotect(c.srtpIn.value, pkt)
      case None => Dropped
      case Some(out) => Sent(PlainSide, out)
  }
}

=== FILE: dtls_conn_props.dfy ===
/**
 * Properties of the connection state machine that span several calls:
 * runs of handshake records, agreement of the two ends' SRTP keys, the
 * media round trip and the fixed role.
 */
module DtlsConnProps {
  import opened Common
  import opened Suites
  import opened Keying
  import opened DtlsConn

  /** Position of a state in the lifecycle; no operation moves backwards. */
  function Rank(s: State): nat {
    match s
    case Init => 0
    case Connecting => 1
    case Up => 2
    case Dead => 3
  }

  predicate AllFit(es: seq<Engine>) {
    forall i :: 0 <= i < |es| ==> EngineFits(es[i])
  }

  /**
   * A run of inbound handshake records, one engine answer each. DEAD
   * absorbs the whole run, the lifecycle never moves backwards, and the
   * invariant holds throughout.
   */
  function RecvAll(c: Conn, es: seq<Engine>): (r: Conn)
    requires AllFit(es)
    ensures c.state == Dead ==> r == c
    ensures Rank(r.state) >= Rank(c.state)
    ensures r.mode == c.mode && r.fingerprint == c.fingerprint
    ensures Valid(c) ==> Valid(r)
    decreases |es|
  {
    if |es| == 0 then c
    else
      var c1 := DtlsRecv(c, es[0]);
      assert Rank(c1.state) >= Rank(c.state);
      RecvAll(c1, es[1..])
  }

  /** A connection that reached UP can only stay UP or die, whatever records follow. */
  lemma {:induction false} UpOnlyDies(c: Conn, es: seq<Engine>)
    requires AllFit(es)
    requires c.state == Up
    ensures var r := RecvAll(c, es);
            (r.state == Up || r.state == Dead) && r.srtpOut == c.srtpOut && r.srtpIn == c.srtpIn
  {
    if |es| > 0 {
      var c1 := DtlsRecv(c, es[0]);
      if c1.state == Up {
        UpOnlyDies(c1, es[1..]);
      } else {
        assert c1.state == Dead;
      }
    }
  }

  /** The timer callback never moves the lifecycle backwards and never touches the keys. */
  lemma TimeoutMonotone(c: Conn, handled: bool, q: TimerQuery)
    ensures Rank(Timeout(c, handled, q).state) >= Rank(c.state)
    ensures Timeout(c, handled, q).srtpOut == c.srtpOut
  {
  }

  /** Both ends derived the same key block from the same profile and exporter output. */
  predicate SameExport(ea: Engine, eb: Engine) {
    ea.profile == eb.profile && ea.exported == eb.exported
  }

  lemma SameExportSameKeys(ea: Engine, eb: Engine)
    requires EngineFits(ea) && EngineFits(eb) && SameExport(ea, eb)
    requires EngineKeys(ea).KeysReady?
    ensures EngineKeys(eb).KeysReady? && EngineKeys(ea).info == EngineKeys(eb).info
  {
  }

  /**
   * When an ACTIVE and a non-ACTIVE end complete the handshake on the
   * same exported material, each end's outbound key is the other end's
   * inbound key, with the same suite.
   */
  lemma KeysAgree(ca: Conn, ea: Engine, cb: Conn, eb: Engine)
    requires EngineFits(ea) && EngineFits(eb) && SameExport(ea, eb)
    requires ca.state == Init || ca.state == Connecting
    requires cb.state == Init || cb.state == Connecting
    requires ca.mode == Active && cb.mode != Active
    requires DtlsRecv(ca, ea).state == Up && DtlsRecv(cb, eb).state == Up
    ensures var ra := DtlsRecv(ca, ea);
            var rb := DtlsRecv(cb, eb);
            && ra.srtpOut.value.key == rb.srtpIn.value.key
            && ra.srtpIn.value.key == rb.srtpOut.value.key
            && ra.srtpOut.value.suite == rb.srtpIn.value.suite
            && ra.srtpIn.value.suite == rb.srtpOut.value.suite
  {
    SameExportSameKeys(ea, eb);
  }

  /**
   * What the SRTP engine is assumed to guarantee: a packet protected
   * under some suite and key is recovered by a context built from the
   * same suite and key whose SSRC filter admits the SSRC the packet
   * carries (`ssrcOf`).
   */
  ghost predicate SrtpInverts(protect: (SrtpCtx, seq<Byte>) -> Option<seq<Byte>>,
                              unprotect: (SrtpCtx, seq<Byte>) -> Option<seq<Byte>>,
                              ssrcOf: seq<Byte> -> U32)
  {
    forall a: SrtpCtx, b: SrtpCtx, p: seq<Byte> {:trigger unprotect(b, protect(a, p).value)} ::
      a.suite == b.suite && a.key == b.key && Admits(b.ssrc, ssrcOf(p)) && protect(a, p).Some? ==>
        unprotect(b, protect(a, p).value) == Some(p)
  }

  /**
   * Media round trip: once both ends are UP, a packet the ACTIVE end
   * encrypts and sends is decrypted by the other end back to the original
   * bytes, and the same in the opposite direction, provided the receiving
   * end configured no peer SSRC or the packet carries the one it did.
   */
  lemma MediaRoundTrip(ca: Conn, ea: Engine, cb: Conn, eb: Engine, pkt: seq<Byte>,
                       protect: (SrtpCtx, seq<Byte>) -> Option<seq<Byte>>,
                       unprotect: (SrtpCtx, seq<Byte>) -> Option<seq<Byte>>,
                       ssrcOf: seq<Byte> -> U32)
    requires EngineFits(ea) && EngineFits(eb) && SameExport(ea, eb)
    requires Valid(ca) && Valid(cb)
    requires ca.state == Init || ca.state == Connecting
    requires cb.state == Init || cb.state == Connecting
    requires ca.mode == Active && cb.mode != Active
    requires DtlsRecv(ca, ea).state == Up && DtlsRecv(cb, eb).state == Up
    requires SrtpInverts(protect, unprotect, ssrcOf)
    ensures var ra := DtlsRecv(ca, ea);
            var rb := DtlsRecv(cb, eb);
            var toB := RtpSend(ra, pkt, protect);
            var toA := RtpSend(rb, pkt, protect);
            && (toB.Sent? && (cb.ssrc == SsrcBad || ssrcOf(pkt) == cb.ssrc) ==>
                  SrtpRecv(rb, toB.pkt, unprotect) == Sent(PlainSide, pkt))
            && (toA.Sent? && (ca.ssrc == SsrcBad || ssrcOf(pkt) == ca.ssrc) ==>
                  SrtpRecv(ra, toA.pkt, unprotect) == Sent(PlainSide, pkt))
  {
    var ra := DtlsRecv(ca, ea);
    var rb := DtlsRecv(cb, eb);
    KeysAgree(ca, ea, cb, eb);
    assert rb.srtpIn.value.ssrc == InboundPolicy(cb.ssrc);
    assert ra.srtpIn.value.ssrc == InboundPolicy(ca.ssrc);
    var toB := RtpSend(ra, pkt, protect);
    if toB.Sent? && (cb.ssrc == SsrcBad || ssrcOf(pkt) == cb.ssrc) {
      assert unprotect(rb.srtpIn.value, protect(ra.srtpOut.value, pkt).value) == Some(pkt);
    }
    var toA := RtpSend(rb, pkt, protect);
    if toA.Sent? && (ca.ssrc == SsrcBad || ssrcOf(pkt) == ca.ssrc) {
      assert unprotect(ra.srtpIn.value, protect(rb.srtpOut.value, pkt).value) == Some(pkt);
    }
  }

  /**
   * Once the connection left INIT with a role, a request resolving to the
   * other role is refused and changes nothing.
   */
  lemma RoleFixedOnceStarted(c: Conn, p1: PeerSpec, s1: HandshakeStart, p2: PeerSpec, s2: HandshakeStart)
    requires Valid(c) && c.state == Init
    requires p1.peerMode == Passive && p2.peerMode == Active
    requires SetMode(c, Some(p1), s1).mode == Active
    ensures var c1 := SetMode(c, Some(p1), s1).conn;
            c1.state == Connecting && SetMode(c1, Some(p2), s2) == ModeResult(c1, ModErr)
  {
  }

  /**
   * A handshake step that fails in the TLS engine kills the connection
   * but leaves its retransmission timer as it was: going DEAD does not
   * cancel it.
   */
  lemma DeadKeepsTimer(c: Conn, e: Engine)
    requires EngineFits(e)
    requires c.state == Init || c.state == Connecting
    requires e.bioWriteOk && !e.okBefore && SslFailed(e.ssl)
    ensures DtlsRecv(c, e).state == Dead && DtlsRecv(c, e).timer == c.timer
  {
  }

  /**
   * Re-sending the role already in force after INIT is accepted: the
   * mode is answered again and the handshake state is left alone.
   */
  lemma ResendSameRoleAccepted(c: Conn, p: PeerSpec, s: HandshakeStart)
    requires Valid(c) && c.state != Init
    requires p.peerMode != ModErr && PickMode(p.peerMode) == c.mode
    requires p.algorithm == DigestAlg && |p.fingerprint| == FingerprintStrLen && SsrcAccepted(p)
    ensures var r := SetMode(c, Some(p), s);
            && r.mode == c.mode
            && r.conn.mode == c.mode && r.conn.state == c.state && r.conn.timer == c.timer
            && r.conn.fingerprint == p.algorithm + " " + p.fingerprint
  {
  }

  /**
   * The inbound context can fail after the outbound one was created: the
   * connection is then DEAD yet keeps its outbound context.
   */
  lemma DeadKeepsOutboundContext()
    ensures var c := Conn(Connecting, Passive, "", SsrcBad, None, None, None);
            var e := Engine(true, false, SslResult(1, ErrWantRead), TimerQuery(false, None), true,
                            Some(ProfileAes128CmSha1_80), Some(Zeros(60)), Zeros(256), Some("sha-256 x"),
                            true, false);
            EngineFits(e) && DtlsRecv(c, e).state == Dead && DtlsRecv(c, e).srtpOut.Some?
  {
    var e := Engine(true, false, SslResult(1, ErrWantRead), TimerQuery(false, None), true,
                    Some(ProfileAes128CmSha1_80), Some(Zeros(60)), Zeros(256), Some("sha-256 x"),
                    true, false);
    assert MaterialSize(AesCm128HmacSha1_80) == 30;
    assert EngineFits(e);
    assert EngineKeys(e).KeysReady?;
  }
}

=== FILE: dtls_gw.dfy ===
/**
 * The gateway front-end of the DTLS module: the signalling-command
 * handler, the per-stream association slot, the packet classifier and
 * the work queue between the packet path and the module's worker.
 */
module DtlsGw {
  import opened Common
  import opened DtlsConn

  type StreamId = nat
  type AssocId = nat
  type PacketId = nat

  /** Shortest packet taken for a DTLS record. */
  const DtlsMinLen: nat := 13

  /**
   * DTLS/SRTP demultiplexing (section 5.1.2 of RFC 5764): a DTLS record
   * has a first byte in 20..63, and the module also demands 13 bytes.
   */
  function IsDtlsPacket(pkt: seq<Byte>): (r: bool)
    ensures r <==> |pkt| >= DtlsMinLen && 20 <= pkt[0] <= 63
  {
    if |pkt| < 13 then false else 19 < pkt[0] && pkt[0] < 64
  }

  /** RTP and RTCP (first byte 128..191) and short packets never pass as DTLS. */
  lemma RtpNeverDtls(pkt: seq<Byte>)
    requires |pkt| < DtlsMinLen || (|pkt| > 0 && 128 <= pkt[0] <= 191)
    ensures !IsDtlsPacket(pkt)
  {
  }

  // ---------------------------------------------------------------- commands

  /**
   * The first byte of a character's UTF-8 encoding: the character itself
   * below 128, a lead byte with the top bit set otherwise.
   */
  function Utf8Lead(c: char): (b: int)
    ensures 0 <= b < 256
    ensures (c as int) < 128 ==> b == c as int
    ensures (c as int) >= 128 ==> b >= 128
  {
    var x := c as int;
    if x < 0x80 then x
    else if x < 0x800 then 0xC0 + x / 0x40
    else if x < 0x1_0000 then 0xE0 + x / 0x1000
    else 0xF0 + (x / 0x4_0000) % 8
  }

  /**
   * Byte `i` of the verb as a NUL-terminated C string; index |s| is the
   * terminator. A non-ASCII character stands for the lead byte of its
   * UTF-8 form: past such a byte the exact value no longer matters, since
   * the verb selector already has its top bit set.
   */
  function CByte(s: string, i: nat): bv8
    requires i <= |s|
  {
    if i < |s| then Utf8Lead(s[i]) as bv8 else 0
  }

  /** The verb selector: the first two bytes of the verb OR-ed together. */
  function Selector(verb: string): bv8
    requires |verb| > 0
  {
    CByte(verb, 0) | CByte(verb, 1)
  }

  datatype Verb = VerbActive | VerbPassive | VerbStatus | VerbOther

  /** The role or query a single letter names, case-blind: a active, p passive, s status. */
  function LetterClass(c: char): Verb {
    if c == 'a' || c == 'A' then VerbActive
    else if c == 'p' || c == 'P' then VerbPassive
    else if c == 's' || c == 'S' then VerbStatus
    else VerbOther
  }

  /**
   * What a verb selects, judged by its selector alone: a one-letter verb
   * selects what its letter names, and so does a longer verb whose second
   * byte sets no bit the first lacks ("sa" is status); a non-ASCII
   * character among the first two selects nothing.
   */
  function VerbClass(verb: string): (v: Verb)
    requires |verb| > 0
    ensures |verb| == 1 ==> v == LetterClass(verb[0])
    ensures |verb| >= 2 && CByte(verb, 1) & !CByte(verb, 0) == 0 ==> v == LetterClass(verb[0])
    ensures (verb[0] as int) >= 128 || (|verb| >= 2 && (verb[1] as int) >= 128) ==> v == VerbOther
  {
    var sel := Selector(verb);
    if sel == 0x61 || sel == 0x41 then VerbActive         // 'a', 'A'
    else if sel == 0x70 || sel == 0x50 then VerbPassive   // 'p', 'P'
    else if sel == 0x73 || sel == 0x53 then VerbStatus    // 's', 'S'
    else VerbOther
  }

  /** A parsed sub-command: peer role with its fingerprint, or a status query. */
  datatype Command =
    | SetPeer(peerMode: Mode, algorithm: string, fingerprint: string, ssrc: Option<string>)
    | Status

  predicate ArgCountOk(argv: seq<string>) {
    |argv| == 1 || |argv| == 3 || |argv| == 4
  }

  /**
   * Sub-command parsing: 1, 3 or 4 arguments; an a/A verb offers the
   * ACTIVE role and a p/P verb the PASSIVE role, both with 3 or 4
   * arguments, the 4th being the SSRC; s/S asks for status with no
   * argument. Anything else is refused.
   */
  function ParseCommand(argv: seq<string>): (r: Option<Command>)
    requires ArgCountOk(argv) ==> |argv[0]| > 0
    ensures r.Some? ==> ArgCountOk(argv)
    ensures r == Some(Status) <==> |argv| == 1 && VerbClass(argv[0]) == VerbStatus
    ensures r.Some? && r.value.SetPeer? ==>
              && (|argv| == 3 || |argv| == 4)
              && (r.value.peerMode == Active || r.value.peerMode == Passive)
              && r.value.algorithm == argv[1] && r.value.fingerprint == argv[2]
              && (r.value.ssrc.Some? <==> |argv| == 4)
              && (r.value.ssrc.Some? ==> r.value.ssrc.value == argv[3])
              && (r.value.peerMode == Active <==> VerbClass(argv[0]) == VerbActive)
              && (r.value.peerMode == Passive <==> VerbClass(argv[0]) == VerbPassive)
    ensures (|argv| == 3 || |argv| == 4) && VerbClass(argv[0]) in {VerbActive, VerbPassive} ==>
              r.Some? && r.value.SetPeer?
  {
    if !ArgCountOk(argv) then None
    else
      var verb := VerbClass(argv[0]);
      if verb == VerbActive || verb == VerbPassive then
        if |argv| != 3 && |argv| != 4 then None
        else
          var peer := if verb == VerbActive then Active else Passive;
          Some(SetPeer(peer, argv[1], argv[2], if |argv| == 4 then Some(argv[3]) else None))
      else if verb == VerbStatus then
        if |argv| != 1 then None else Some(Status)
      else None
  }

  // Selectors of the example verbs, one literal at a time.

  lemma SelectorOfA()
    ensures Selector("a") == 0x61
  {
    assert "a"[0] as int == 97;
    assert CByte("a", 0) == 97 as bv8;
  }

  lemma SelectorOfUpperP()
    ensures Selector("P") == 0x50
  {
    assert "P"[0] as int == 80;
    assert CByte("P", 0) == 80 as bv8;
  }

  lemma SelectorOfS()
    ensures Selector("s") == 0x73
  {
    assert "s"[0] as int == 115;
    assert CByte("s", 0) == 115 as bv8;
  }

  /** 's' | 'a' is 's'. */
  lemma SelectorOfSa()
    ensures Selector("sa") == 0x73
  {
    assert "sa"[0] as int == 115 && "sa"[1] as int == 97;
    assert CByte("sa", 0) == 115 as bv8 && CByte("sa", 1) == 97 as bv8;
  }

  /** 'a' | 'c' is 'c'. */
  lemma SelectorOfActive()
    ensures Selector("active") == 0x63
  {
    assert "active"[0] as int == 97 && "active"[1] as int == 99;
    assert CByte("active", 0) == 97 as bv8 && CByte("active", 1) == 99 as bv8;
  }

  /** Single-letter verbs: "a" offers ACTIVE without an SSRC, "P" PASSIVE with one, "s" asks for status. */
  lemma OneLetterVerbs(alg: string, fp: string, ssrc: string)
    ensures ParseCommand(["a", alg, fp]) == Some(SetPeer(Active, alg, fp, None))
    ensures ParseCommand(["P", alg, fp, ssrc]) == Some(SetPeer(Passive, alg, fp, Some(ssrc)))
    ensures ParseCommand(["s"]) == Some(Status)
  {
    SelectorOfA();
    SelectorOfUpperP();
    SelectorOfS();
  }

  /**
   * The selector's blind spots: "sa" asks for status because its second
   * byte adds no bit to 's'; the spelled-out "active" is refused because
   * its selector is 'c'.
   */
  lemma SelectorQuirks(alg: string, fp: string)
    ensures ParseCommand(["sa"]) == Some(Status)
    ensures ParseCommand(["active", alg, fp]) == None
  {
    SelectorOfSa();
    SelectorOfActive();
  }

  /** A status verb with arguments and a role verb without the fingerprint are refused. */
  lemma WrongArgCountRefused(alg: string, fp: string)
    ensures ParseCommand(["s", alg, fp]) == None
    ensures ParseCommand(["a", alg]) == None
  {
    SelectorOfA();
    SelectorOfS();
  }

  // ---------------------------------------------------------------- association slot

  /** The per-stream record: an identity and the connection it owns. */
  datatype Assoc = Assoc(id: AssocId, conn: Conn)

  /** The module's slot of every stream that has one populated. */
  type Registry = map<StreamId, Assoc>

  predicate RegistryValid(reg: Registry) {
    forall s :: s in reg ==> Valid(reg[s].conn)
  }

  datatype CtorResult = CtorResult(assoc: Option<Assoc>, moduleRefs: int)

  /**
   * Builds a candidate record around a fresh connection; a live record
   * holds one reference on the module.
   */
  function DataCtor(allocOk: bool, connOk: bool, id: AssocId, moduleRefs: int): (r: CtorResult)
    ensures r.assoc.Some? <==> allocOk && connOk
    ensures r.assoc.Some? ==> r.assoc.value == Assoc(id, NewConn()) && r.moduleRefs == moduleRefs + 1
    ensures r.assoc.None? ==> r.moduleRefs == moduleRefs
  {
    if !allocOk || !connOk then CtorResult(None, moduleRefs)
    else CtorResult(Some(Assoc(id, NewConn())), moduleRefs + 1)
  }

  /** Releasing a record gives its module reference back. */
  function DataDtor(a: Assoc, moduleRefs: int): (r: int)
    ensures DataCtor(true, true, a.id, r).moduleRefs == moduleRefs
  {
    moduleRefs - 1
  }

  /** Answers from the world a command depends on. */
  datatype CmdEnv = CmdEnv(
    allocOk: bool,              // allocation of the candidate record
    connOk: bool,               // construction of its connection
    candidateId: AssocId,       // identity of the candidate
    raced: Option<Assoc>,       // record another thread published between the load and the compare-exchange
    senderOk: bool,             // sender setup for a PASSIVE peer
    start: HandshakeStart)      // handshake answers if the command opens the handshake

  datatype Slot = Slot(reg: Registry, moduleRefs: int, assoc: Option<Assoc>)

  /**
   * Publishes a built candidate into an empty slot by compare-exchange:
   * the slot takes the candidate unless another record got there first,
   * in which case the candidate is released and the winner used.
   */
  function Publish(reg: Registry, s: StreamId, cand: Assoc, moduleRefs: int, raced: Option<Assoc>): (r: Slot)
    requires s !in reg
    ensures r.assoc == Some(if raced.Some? then raced.value else cand)
    ensures r.reg == reg[s := r.assoc.value]
    ensures r.reg.Keys == reg.Keys + {s} && |r.reg.Keys| == |reg.Keys| + 1
    ensures r.moduleRefs == if raced.Some? then moduleRefs - 1 else moduleRefs
    ensures RegistryValid(reg) && Valid(r.assoc.value.conn) ==> RegistryValid(r.reg)
  {
    var a := if raced.Some? then raced.value else cand;
    assert |reg.Keys + {s}| == |reg.Keys| + 1;
    Slot(reg[s := a], if raced.Some? then DataDtor(cand, moduleRefs) else moduleRefs, Some(a))
  }

  /**
   * Create-if-absent on the stream's slot. A populated slot is used as is.
   * Otherwise a candidate is built and published only if the slot is
   * still empty; if another record won, the candidate is released and the
   * winner used. A populated slot is never replaced.
   */
  function AcquireSlot(reg: Registry, s: StreamId, moduleRefs: int, env: CmdEnv): (r: Slot)
    ensures s in reg ==> r == Slot(reg, moduleRefs, Some(reg[s]))
    ensures forall t :: t in reg ==> t in r.reg && r.reg[t] == reg[t]
    ensures r.assoc.Some? ==> s in r.reg && r.reg[s] == r.assoc.value
    ensures r.reg.Keys == reg.Keys + (if r.assoc.Some? then {s} else {})
    ensures s !in reg && !(env.allocOk && env.connOk) ==> r == Slot(reg, moduleRefs, None)
    ensures s !in reg && env.allocOk && env.connOk ==>
              r.assoc == (if env.raced.Some? then env.raced else Some(Assoc(env.candidateId, NewConn())))
    ensures r.moduleRefs == moduleRefs + (if s !in reg && r.assoc.Some? && env.raced.None? then 1 else 0)
    ensures env.raced.None? ==> r.moduleRefs == moduleRefs + (|r.reg.Keys| - |reg.Keys|)
    ensures RegistryValid(reg) && (env.raced.Some? ==> Valid(env.raced.value.conn)) ==> RegistryValid(r.reg)
  {
    if s in reg then Slot(reg, moduleRefs, Some(reg[s]))
    else
      var made := DataCtor(env.allocOk, env.connOk, env.candidateId, moduleRefs);
      if made.assoc.None? then Slot(reg, moduleRefs, None)
      else Publish(reg, s, made.assoc.value, made.moduleRefs, env.raced)
  }

  // ---------------------------------------------------------------- status line

  function ModeWord(m: Mode): string
    requires m != ModErr
  {
    match m
    case ActPass => "actpass"
    case Active => "active"
    case Passive => "passive"
  }

  /** Index of the first space in `s`, or |s|. */
  function FirstSpace(s: string): (i: nat)
    ensures i <= |s|
    ensures forall j :: 0 <= j < i ==> s[j] != ' '
    ensures i < |s| ==> s[i] == ' '
  {
    if |s| == 0 || s[0] == ' ' then 0 else 1 + FirstSpace(s[1..])
  }

  /** Reads a status line back: the mode word up to the first space, the rest is the fingerprint. */
  function ParseStatusLine(line: string): Option<(Mode, string)> {
    var i := FirstSpace(line);
    if i == |line| then None
    else
      var word := line[..i];
      var rest := line[i + 1..];
      if word == "actpass" then Some((ActPass, rest))
      else if word == "active" then Some((Active, rest))
      else if word == "passive" then Some((Passive, rest))
      else None
  }

  /** The status response "<mode> <local fingerprint>"; it reads back to its parts. */
  function StatusLine(m: Mode, localFp: string): (line: string)
    requires m != ModErr
    ensures ParseStatusLine(line) == Some((m, localFp))
  {
    var w := ModeWord(m);
    var line := w + " " + localFp;
    assert line[..|w|] == w;
    assert line[|w| + 1..] == localFp;
    assert FirstSpace(line) == |w| by {
      FirstSpaceAfterWord(w, localFp);
    }
    line
  }

  lemma {:induction false} FirstSpaceAfterWord(w: string, rest: string)
    requires forall j :: 0 <= j < |w| ==> w[j] != ' '
    ensures FirstSpace(w + " " + rest) == |w|
  {
    if |w| > 0 {
      assert (w + " " + rest)[1..] == w[1..] + " " + rest;
      FirstSpaceAfterWord(w[1..], rest);
    }
  }

  // ---------------------------------------------------------------- command handler

  /** The command's context: its arguments and the stream pair it addresses. */
  datatype CmdCtx = CmdCtx(argv: seq<string>, strmIn: StreamId, strmOut: StreamId)

  datatype CmdResult = CmdResult(rc: int, reg: Registry, moduleRefs: int, response: Option<string>)

  /** The stream whose slot a command uses: inbound for a/p, outbound for s. */
  function DtlsStream(cmd: Command, ctx: CmdCtx): StreamId {
    if cmd.Status? then ctx.strmOut else ctx.strmIn
  }

  function PeerSpecOf(cmd: Command): Option<PeerSpec> {
    if cmd.Status? then None else Some(PeerSpec(cmd.peerMode, cmd.algorithm, cmd.fingerprint, cmd.ssrc))
  }

  /**
   * An a/p command goes through on record `a`: a PASSIVE peer has its
   * sender and mode negotiation answers no error.
   */
  predicate SetPeerAccepted(a: Assoc, cmd: Command, env: CmdEnv)
    requires cmd.SetPeer? && (cmd.peerMode == Active || cmd.peerMode == Passive)
  {
    && (cmd.peerMode == Active || env.senderOk)
    && SetMode(a.conn, PeerSpecOf(cmd), env.start).mode != ModErr
  }

  /**
   * Mode negotiation on an acquired record: a PASSIVE peer first needs a
   * sender, then the connection's mode is set from the command; the
   * connection's changes are stored even when the result is a mode error.
   */
  function Negotiate(localFp: string, reg: Registry, moduleRefs: int, s: StreamId, cmd: Command, env: CmdEnv): (r: CmdResult)
    requires s in reg && RegistryValid(reg)
    requires cmd.SetPeer? ==> cmd.peerMode == Active || cmd.peerMode == Passive
    ensures r.rc == 0 || r.rc == -1
    ensures r.moduleRefs == moduleRefs
    ensures r.reg.Keys == reg.Keys
    ensures forall t :: t in reg ==> r.reg[t].id == reg[t].id
    ensures forall t :: t in reg && t != s ==> r.reg[t] == reg[t]
    ensures cmd.Status? ==> r.rc == 0 && r.reg == reg
    ensures cmd.Status? ==> r.response == Some(StatusLine(reg[s].conn.mode, localFp))
    ensures cmd.SetPeer? ==> r.response.None?
    ensures cmd.SetPeer? && cmd.peerMode == Passive && !env.senderOk ==> r == CmdResult(-1, reg, moduleRefs, None)
    ensures cmd.SetPeer? && (cmd.peerMode == Active || env.senderOk) ==>
              var m := SetMode(reg[s].conn, PeerSpecOf(cmd), env.start);
              && r.reg == reg[s := reg[s].(conn := m.conn)]
              && (r.rc == -1 <==> m.mode == ModErr)
    ensures cmd.SetPeer? ==> (r.rc == 0 <==> SetPeerAccepted(reg[s], cmd, env))
    ensures cmd.SetPeer? && r.rc == 0 ==>
              && r.reg[s].conn.mode == PickMode(cmd.peerMode)
              && r.reg[s].conn.fingerprint == cmd.algorithm + " " + cmd.fingerprint
    ensures RegistryValid(r.reg)
  {
    var a := reg[s];
    if cmd.SetPeer? && cmd.peerMode == Passive && !env.senderOk then
      CmdResult(-1, reg, moduleRefs, None)
    else
      var m := SetMode(a.conn, PeerSpecOf(cmd), env.start);
      var reg2 := reg[s := a.(conn := m.conn)];
      assert reg2.Keys == reg.Keys;
      if m.mode == ModErr then CmdResult(-1, reg2, moduleRefs, None)
      else if cmd.SetPeer? then CmdResult(0, reg2, moduleRefs, None)
      else
        assert reg2 == reg;
        CmdResult(0, reg2, moduleRefs, Some(StatusLine(m.mode, localFp)))
  }

  /** Runs a well-formed sub-command against the registry: acquire the slot, then negotiate. */
  function Run(localFp: string, reg: Registry, moduleRefs: int, cmd: Command, ctx: CmdCtx, env: CmdEnv): (r: CmdResult)
    requires RegistryValid(reg)
    requires env.raced.Some? ==> Valid(env.raced.value.conn)
    requires cmd.SetPeer? ==> cmd.peerMode == Active || cmd.peerMode == Passive
    ensures r.rc == 0 || r.rc == -1
    ensures forall t :: t in reg ==>
              && t in r.reg && r.reg[t].id == reg[t].id
              && (t != DtlsStream(cmd, ctx) ==> r.reg[t] == reg[t])
    ensures r.reg.Keys <= reg.Keys + {DtlsStream(cmd, ctx)}
    ensures env.raced.None? ==> r.moduleRefs == moduleRefs + (|r.reg.Keys| - |reg.Keys|)
    ensures RegistryValid(r.reg)
    ensures cmd.SetPeer? ==> r.response.None?
    ensures cmd.SetPeer? ==>
              var got := AcquireSlot(reg, ctx.strmIn, moduleRefs, env);
              r.rc == 0 <==> got.assoc.Some? && SetPeerAccepted(got.assoc.value, cmd, env)
    ensures cmd.SetPeer? && r.rc == 0 ==>
              && ctx.strmIn in r.reg
              && r.reg[ctx.strmIn].conn.mode == PickMode(cmd.peerMode)
              && r.reg[ctx.strmIn].conn.fingerprint == cmd.algorithm + " " + cmd.fingerprint
  {
    var s := DtlsStream(cmd, ctx);
    var got := AcquireSlot(reg, s, moduleRefs, env);
    if got.assoc.None? then CmdResult(-1, reg, moduleRefs, None)
    else if cmd.Status? then Negotiate(localFp, got.reg, got.moduleRefs, s, cmd, env)
    else
      assert s == ctx.strmIn && got.reg[s] == got.assoc.value;
      Negotiate(localFp, got.reg, got.moduleRefs, s, cmd, env)
  }

  /**
   * A signalling sub-command. A malformed command fails with no effect.
   * Otherwise the addressed slot is created if absent and the mode is
   * negotiated; a mode error fails the command. a/p answer 0 with no
   * body, s answers 0 with the status line. Only the addressed slot ever
   * changes and no populated slot is replaced; without a race the module
   * gains one reference per record published.
   */
  function HandleCommand(localFp: string, reg: Registry, moduleRefs: int, ctx: CmdCtx, env: CmdEnv): (r: CmdResult)
    requires ArgCountOk(ctx.argv) ==> |ctx.argv[0]| > 0
    requires RegistryValid(reg)
    requires env.raced.Some? ==> Valid(env.raced.value.conn)
    ensures r.rc == 0 || r.rc == -1
    ensures forall t :: t in reg ==> t in r.reg && r.reg[t].id == reg[t].id
    ensures env.raced.None? ==> r.moduleRefs == moduleRefs + (|r.reg.Keys| - |reg.Keys|)
    ensures RegistryValid(r.reg)
    ensures ParseCommand(ctx.argv).None? ==> r == CmdResult(-1, reg, moduleRefs, None)
    ensures ParseCommand(ctx.argv).Some? ==> r.reg.Keys <= reg.Keys + {DtlsStream(ParseCommand(ctx.argv).value, ctx)}
    ensures ParseCommand(ctx.argv).Some? ==> forall t :: t in reg && t != DtlsStream(ParseCommand(ctx.argv).value, ctx) ==> t in r.reg && r.reg[t] == reg[t]
    ensures ParseCommand(ctx.argv).None? || ParseCommand(ctx.argv).value.SetPeer? ==> r.response.None?
    ensures ParseCommand(ctx.argv).Some? && ParseCommand(ctx.argv).value.SetPeer? ==>
              var cmd := ParseCommand(ctx.argv).value;
              var got := AcquireSlot(reg, ctx.strmIn, moduleRefs, env);
              && (r.rc == 0 <==> got.assoc.Some? && SetPeerAccepted(got.assoc.value, cmd, env))
              && (r.rc == 0 ==>
                    && ctx.strmIn in r.reg
                    && r.reg[ctx.strmIn].conn.mode == PickMode(cmd.peerMode)
                    && r.reg[ctx.strmIn].conn.fingerprint == cmd.algorithm + " " + cmd.fingerprint)
  {
    match ParseCommand(ctx.argv)
    case None => CmdResult(-1, reg, moduleRefs, None)
    case Some(cmd) => Run(localFp, reg, moduleRefs, cmd, ctx, env)
  }

  /**
   * The status query reads the outbound stream's record: once it
   * succeeds the record exists and the reply is its mode word and the
   * local fingerprint; on an existing record it always succeeds and
   * changes nothing.
   */
  lemma StatusReportsMode(localFp: string, reg: Registry, moduleRefs: int, ctx: CmdCtx, env: CmdEnv)
    requires |ctx.argv| == 1 && |ctx.argv[0]| > 0 && VerbClass(ctx.argv[0]) == VerbStatus
    requires RegistryValid(reg)
    requires env.raced.Some? ==> Valid(env.raced.value.conn)
    ensures var r := HandleCommand(localFp, reg, moduleRefs, ctx, env);
            && (r.rc == 0 ==>
                  && ctx.strmOut in r.reg
                  && r.reg[ctx.strmOut].conn.mode != ModErr
                  && r.response == Some(StatusLine(r.reg[ctx.strmOut].conn.mode, localFp)))
            && (ctx.strmOut in reg ==> r.rc == 0 && r.reg == reg && r.moduleRefs == moduleRefs)
  {
    assert ParseCommand(ctx.argv) == Some(Status);
    var got := AcquireSlot(reg, ctx.strmOut, moduleRefs, env);
    if got.assoc.Some? {
      var n := Negotiate(localFp, got.reg, got.moduleRefs, ctx.strmOut, Status, env);
      assert HandleCommand(localFp, reg, moduleRefs, ctx, env) == n;
    }
  }

  /**
   * An accepted a/p command on a stream fixes what a later status query
   * on that stream reports: the local role chosen for the peer's, and the
   * query changes nothing.
   */
  lemma SetPeerThenStatus(localFp: string, reg: Registry, moduleRefs: int,
                          ctx1: CmdCtx, env1: CmdEnv, ctx2: CmdCtx, env2: CmdEnv)
    requires ArgCountOk(ctx1.argv) ==> |ctx1.argv[0]| > 0
    requires ParseCommand(ctx1.argv).Some? && ParseCommand(ctx1.argv).value.SetPeer?
    requires |ctx2.argv| == 1 && |ctx2.argv[0]| > 0 && VerbClass(ctx2.argv[0]) == VerbStatus
    requires ctx2.strmOut == ctx1.strmIn
    requires RegistryValid(reg)
    requires env1.raced.Some? ==> Valid(env1.raced.value.conn)
    requires env2.raced.Some? ==> Valid(env2.raced.value.conn)
    ensures var r1 := HandleCommand(localFp, reg, moduleRefs, ctx1, env1);
            r1.rc == 0 ==>
              var r2 := HandleCommand(localFp, r1.reg, r1.moduleRefs, ctx2, env2);
              && r2.rc == 0 && r2.reg == r1.reg
              && r2.response == Some(StatusLine(PickMode(ParseCommand(ctx1.argv).value.peerMode), localFp))
  {
    var r1 := HandleCommand(localFp, reg, moduleRefs, ctx1, env1);
    if r1.rc == 0 {
      StatusReportsMode(localFp, r1.reg, r1.moduleRefs, ctx2, env2);
    }
  }

  // ---------------------------------------------------------------- classifier

  datatype Direction = DtlsIn | SrtpIn | RtpOut

  /** Routing tag: direction, the connection (by its record) and the stream referenced. */
  datatype Aux = Aux(direction: Direction, conn: AssocId, strm: StreamId)

  /**
   * Packet classification. A packet whose receiving stream has a record
   * is claimed as DTLS or SRTP input by the demultiplexing test; otherwise
   * one whose sending stream has a record is claimed as media to encrypt;
   * any other packet is left alone. The tag names the stream whose record
   * claimed the packet.
   */
  function Classify(reg: Registry, pkt: seq<Byte>, strmIn: StreamId, strmOut: Option<StreamId>): (r: Option<Aux>)
    ensures r.None? <==> strmIn !in reg && (strmOut.None? || strmOut.value !in reg)
    ensures r.Some? ==> r.value.strm in reg && r.value.conn == reg[r.value.strm].id
    ensures r.Some? ==> (r.value.direction != RtpOut <==> strmIn in reg)
    ensures r.Some? ==> (r.value.direction == DtlsIn <==> strmIn in reg && IsDtlsPacket(pkt))
    ensures r.Some? && r.value.direction != RtpOut ==> r.value.strm == strmIn
    ensures r.Some? && r.value.direction == RtpOut ==> strmOut == Some(r.value.strm)
  {
    if strmIn in reg then
      Some(Aux(if IsDtlsPacket(pkt) then DtlsIn else SrtpIn, reg[strmIn].id, strmIn))
    else if strmOut.None? then None
    else if strmOut.value in reg then Some(Aux(RtpOut, reg[strmOut.value].id, strmOut.value))
    else None
  }

  /** A 10-byte packet on a stream with a record goes to the SRTP path. */
  lemma ShortPacketIsMedia(reg: Registry, pkt: seq<Byte>, strmIn: StreamId, strmOut: Option<StreamId>)
    requires strmIn in reg && |pkt| == 10
    ensures Classify(reg, pkt, strmIn, strmOut).value.direction == SrtpIn
  {
  }

  // ---------------------------------------------------------------- work queue

  datatype WorkItem = WorkItem(pkt: PacketId, aux: Aux)

  datatype QueueEntry = Item(w: WorkItem) | Sentinel

  /** Objects whose reference counts the queue moves. */
  datatype Obj = PacketObj(p: PacketId) | ConnObj(c: AssocId) | StreamObj(s: StreamId)

  type RefCounts = map<Obj, int>

  function Refs(m: RefCounts, o: Obj): int {
    if o in m then m[o] else 0
  }

  /** References a work item holds on `o`: one each on its packet, connection and stream. */
  function Held(w: WorkItem, o: Obj): nat {
    (if o == PacketObj(w.pkt) then 1 else 0)
    + (if o == ConnObj(w.aux.conn) then 1 else 0)
    + (if o == StreamObj(w.aux.strm) then 1 else 0)
  }

  function HeldAll(ws: seq<WorkItem>, o: Obj): nat {
    if |ws| == 0 then 0 else HeldAll(ws[..|ws| - 1], o) + Held(ws[|ws| - 1], o)
  }

  /** Moves the three counts of an item's objects by `d`. */
  function Adjust(m: RefCounts, w: WorkItem, d: int): (r: RefCounts)
    ensures forall o :: Refs(r, o) == Refs(m, o) + d * Held(w, o)
  {
    var p := PacketObj(w.pkt);
    var c := ConnObj(w.aux.conn);
    var s := StreamObj(w.aux.strm);
    m[p := Refs(m, p) + d][c := Refs(m, c) + d][s := Refs(m, s) + d]
  }

  datatype PprocAction = PprocTake

  datatype Enqueued = Enqueued(action: PprocAction, queue: seq<QueueEntry>, refs: RefCounts)

  /**
   * Hands a claimed packet to the worker: always answers TAKE. The item
   * takes one reference on the packet, the connection and the stream; if
   * the item cannot be allocated the packet is dropped with none taken.
   */
  function Enqueue(q: seq<QueueEntry>, refs: RefCounts, pkt: PacketId, aux: Aux, allocOk: bool): (r: Enqueued)
    ensures r.action == PprocTake
    ensures !allocOk ==> r.queue == q && r.refs == refs
    ensures allocOk ==> r.queue == q + [Item(WorkItem(pkt, aux))]
    ensures allocOk ==> forall o :: Refs(r.refs, o) == Refs(refs, o) + Held(WorkItem(pkt, aux), o)
  {
    if !allocOk then Enqueued(PprocTake, q, refs)
    else
      var w := WorkItem(pkt, aux);
      Enqueued(PprocTake, q + [Item(w)], Adjust(refs, w, 1))
  }

  /** The connection operation a worker invokes for an item. */
  datatype Call = CallDtlsRecv(conn: AssocId, pkt: PacketId)
                | CallSrtpRecv(conn: AssocId, pkt: PacketId)
                | CallRtpSend(conn: AssocId, pkt: PacketId)

  function Dispatch(w: WorkItem): (c: Call)
    ensures c.conn == w.aux.conn && c.pkt == w.pkt
    ensures c.CallDtlsRecv? <==> w.aux.direction == DtlsIn
    ensures c.CallSrtpRecv? <==> w.aux.direction == SrtpIn
    ensures c.CallRtpSend? <==> w.aux.direction == RtpOut
  {
    match w.aux.direction
    case DtlsIn => CallDtlsRecv(w.aux.conn, w.pkt)
    case SrtpIn => CallSrtpRecv(w.aux.conn, w.pkt)
    case RtpOut => CallRtpSend(w.aux.conn, w.pkt)
  }

  /** The items queued ahead of the first sentinel. */
  function Pending(q: seq<QueueEntry>): seq<WorkItem> {
    if |q| == 0 || q[0].Sentinel? then [] else [q[0].w] + Pending(q[1..])
  }

  datatype Drained = Drained(calls: seq<Call>, refs: RefCounts, stopped: bool)

  /**
   * The worker loop over a queue: each item before the sentinel is
   * dispatched in order and then drops the three references it held; the
   * sentinel ends the loop.
   */
  function Worker(q: seq<QueueEntry>, refs: RefCounts): (r: Drained)
    ensures |r.calls| == |Pending(q)|
    ensures forall i :: 0 <= i < |r.calls| ==> r.calls[i] == Dispatch(Pending(q)[i])
    ensures r.stopped <==> Sentinel in q
    ensures forall o :: Refs(r.refs, o) == Refs(refs, o) - HeldAll(Pending(q), o)
  {
    if |q| == 0 then Drained([], refs, false)
    else if q[0].Sentinel? then Drained([], refs, true)
    else
      var w := q[0].w;
      var rest := Worker(q[1..], Adjust(refs, w, -1));
      assert q == [q[0]] + q[1..];
      HeldAllCons(w, Pending(q[1..]));
      Drained([Dispatch(w)] + rest.calls, rest.refs, rest.stopped)
  }

  lemma {:induction false} HeldAllCons(w: WorkItem, ws: seq<WorkItem>)
    ensures forall o :: HeldAll([w] + ws, o) == Held(w, o) + HeldAll(ws, o)
  {
    if |ws| > 0 {
      var init := ws[..|ws| - 1];
      assert ([w] + ws)[..|ws|] == [w] + init;
      HeldAllCons(w, init);
    } else {
      assert [w] + ws == [w];
    }
  }

  /** Enqueues every item of `ws` with successful allocation. */
  function EnqueueAll(q: seq<QueueEntry>, refs: RefCounts, ws: seq<WorkItem>): (r: Enqueued)
    ensures r.queue == q + Items(ws)
    ensures forall o :: Refs(r.refs, o) == Refs(refs, o) + HeldAll(ws, o)
  {
    if |ws| == 0 then Enqueued(PprocTake, q, refs)
    else
      var prev := EnqueueAll(q, refs, ws[..|ws| - 1]);
      var last := ws[|ws| - 1];
      assert Items(ws) == Items(ws[..|ws| - 1]) + [Item(last)];
      Enqueue(prev.queue, prev.refs, last.pkt, last.aux, true)
  }

  function Items(ws: seq<WorkItem>): (q: seq<QueueEntry>)
    ensures |q| == |ws|
    ensures forall i :: 0 <= i < |ws| ==> q[i] == Item(ws[i])
  {
    seq(|ws|, i requires 0 <= i < |ws| => Item(ws[i]))
  }

  lemma {:induction false} PendingUpToSentinel(q: seq<QueueEntry>, ws: seq<WorkItem>)
    requires |ws| < |q| && q[|ws|] == Sentinel
    requires forall i :: 0 <= i < |ws| ==> q[i] == Item(ws[i])
    ensures Pending(q) == ws
  {
    if |ws| > 0 {
      PendingUpToSentinel(q[1..], ws[1..]);
      assert ws == [ws[0]] + ws[1..];
    }
  }


  /**
   * Reference balance: items enqueued onto an empty queue and drained up
   * to the sentinel leave every reference count where it started, after
   * one call per item in arrival order.
   */
  lemma QueueBalance(refs: RefCounts, ws: seq<WorkItem>, e: Enqueued)
    requires e == EnqueueAll([], refs, ws)
    ensures var d := Worker(e.queue + [Sentinel], e.refs);
            && d.stopped
            && |d.calls| == |ws|
            && (forall i :: 0 <= i < |ws| ==> d.calls[i] == Dispatch(ws[i]))
            && (forall o :: Refs(d.refs, o) == Refs(refs, o))
  {
    EnqueuedThenPending(refs, ws, e);
  }

  /** Items enqueued onto an empty queue are, in order, what the worker finds before the sentinel. */
  lemma EnqueuedThenPending(refs: RefCounts, ws: seq<WorkItem>, e: Enqueued)
    requires e == EnqueueAll([], refs, ws)
    ensures Pending(e.queue + [Sentinel]) == ws
    ensures Sentinel in e.queue + [Sentinel]
    ensures forall o :: Refs(e.refs, o) == Refs(refs, o) + HeldAll(ws, o)
  {
    assert e.queue == Items(ws);
    ItemsThenSentinel(ws, e.queue);
  }

  lemma ItemsThenSentinel(ws: seq<WorkItem>, q0: seq<QueueEntry>)
    requires q0 == Items(ws)
    ensures Pending(q0 + [Sentinel]) == ws
    ensures Sentinel in q0 + [Sentinel]
  {
    var q := q0 + [Sentinel];
    assert q[|ws|] == Sentinel;
    assert forall i :: 0 <= i < |ws| ==> q[i] == Item(ws[i]);
    PendingUpToSentinel(q, ws);
  }


}

=== FILE: hashtable.dfy ===
/**
 * The chained hash table: 256 buckets, each a chain of entries in link
 * order, an entry counter, and an optional no-duplicates policy. The
 * bucket of a key comes from a keyed 8-bit hash, taken here as a
 * parameter `h`. The doubly-linked representation of a chain is in
 * module ChainLinks; here a chain is the sequence of its entries.
 */
module HashTable {
  import opened Common
  const HtLen: nat := 256

  type Bucket = b: int | 0 <= b < 256
  /** The reference-counted object an entry points to. */
  type Val = nat
  /** Identity (address) of an entry. */
  type EntryId = nat

  datatype KeyType = KeyStr | KeyU16 | KeyU32 | KeyU64

  datatype Key = StrKey(s: string) | NumKey(n: nat)

  /**
   * Keys a table of a key type accepts: NUL-free strings, or integers of
   * the type's width. On such keys strcmp() and integer comparison are
   * both plain equality.
   */
  predicate KeyFits(kt: KeyType, k: Key) {
    match kt
    case KeyStr => k.StrKey? && '\0' !in k.s
    case KeyU16 => k.NumKey? && k.n < 0x1_0000
    case KeyU32 => k.NumKey? && k.n < 0x1_0000_0000
    case KeyU64 => k.NumKey? && k.n < 0x1_0000_0000_0000_0000
  }

  datatype Entry = Entry(id: EntryId, key: Key, val: Val)

  datatype Table = Table(keyType: KeyType, noDups: bool, dupAbort: bool, buckets: seq<seq<Entry>>, count: int)

  /** Number of entries over all chains. */
  function TotalLen(bs: seq<seq<Entry>>): nat {
    if |bs| == 0 then 0 else TotalLen(bs[..|bs| - 1]) + |bs[|bs| - 1]|
  }

  predicate UniqueIds(c: seq<Entry>) {
    forall i, j :: 0 <= i < j < |c| ==> c[i].id != c[j].id
  }

  predicate UniqueKeys(c: seq<Entry>) {
    forall i, j :: 0 <= i < j < |c| ==> c[i].key != c[j].key
  }

  /** A chain in bucket `b`: its keys fit and hash to `b`, its entries are distinct, and with NODUPS so are its keys. */
  predicate ChainOk(t: Table, h: Key -> Bucket, b: Bucket, c: seq<Entry>) {
    && (forall i :: 0 <= i < |c| ==> KeyFits(t.keyType, c[i].key) && h(c[i].key) == b)
    && UniqueIds(c)
    && (t.noDups ==> UniqueKeys(c))
  }

  /** The table invariant: 256 well-formed chains and a counter equal to their total length. */
  predicate Valid(t: Table, h: Key -> Bucket) {
    && |t.buckets| == HtLen
    && t.count == TotalLen(t.buckets)
    && forall b: Bucket :: ChainOk(t, h, b, t.buckets[b])
  }

  function EmptyTable(kt: KeyType, noDups: bool, dupAbort: bool): (t: Table)
    ensures forall h :: Valid(t, h)
    ensures t.count == 0
  {
    var bs := seq(HtLen, _ => []);
    assert TotalLen(bs) == 0 by { AllEmptyTotal(bs); }
    Table(kt, noDups, dupAbort, bs, 0)
  }

  lemma {:induction false} AllEmptyTotal(bs: seq<seq<Entry>>)
    requires forall b :: 0 <= b < |bs| ==> bs[b] == []
    ensures TotalLen(bs) == 0
  {
    if |bs| > 0 {
      AllEmptyTotal(bs[..|bs| - 1]);
    }
  }

  /** Replacing one chain moves the total by the difference in its length. */
  lemma {:induction false} TotalLenUpdate(bs: seq<seq<Entry>>, b: nat, c: seq<Entry>)
    requires b < |bs|
    ensures TotalLen(bs[b := c]) == TotalLen(bs) - |bs[b]| + |c|
  {
    var n := |bs| - 1;
    if b == n {
      assert bs[b := c][..n] == bs[..n];
    } else {
      assert bs[b := c][..n] == bs[..n][b := c];
      TotalLenUpdate(bs[..n], b, c);
    }
  }

  /** Index of the first entry of `c` with key `k`, or |c|. */
  function FirstMatch(c: seq<Entry>, k: Key): (i: nat)
    ensures i <= |c|
    ensures forall j :: 0 <= j < i ==> c[j].key != k
    ensures i < |c| ==> c[i].key == k
  {
    if |c| == 0 then 0
    else if c[0].key == k then 0
    else 1 + FirstMatch(c[1..], k)
  }

  // ---------------------------------------------------------------- append

  datatype AppendResult =
    | Linked(t: Table, first: bool)   // entry linked at the chain's tail; `first` when the table was empty
    | NotLinked                       // allocation failed, or NODUPS rejected a duplicate
    | Aborted                         // NODUPS with DUP_ABRT met a duplicate

  predicate HasKey(c: seq<Entry>, k: Key) {
    exists i :: 0 <= i < |c| && c[i].key == k
  }

  predicate FreshId(t: Table, id: EntryId) {
    forall b, i :: 0 <= b < |t.buckets| && 0 <= i < |t.buckets[b]| ==> t.buckets[b][i].id != id
  }

  /**
   * Append: link a new entry for (key, val) at the tail of bucket h(key)
   * and count it. Allocation failure links nothing. With NODUPS an equal
   * key already in the chain links nothing, or aborts with DUP_ABRT.
   */
  function Append(t: Table, h: Key -> Bucket, key: Key, val: Val, id: EntryId, allocOk: bool): (r: AppendResult)
    requires Valid(t, h) && KeyFits(t.keyType, key) && FreshId(t, id)
    ensures r.Linked? <==> allocOk && !(t.noDups && HasKey(t.buckets[h(key)], key))
    ensures r.Aborted? <==> allocOk && t.noDups && t.dupAbort && HasKey(t.buckets[h(key)], key)
    ensures r.Linked? ==>
              && r.t.buckets == t.buckets[h(key) := t.buckets[h(key)] + [Entry(id, key, val)]]
              && r.t.count == t.count + 1
              && (r.first <==> t.count == 0)
              && r.t.keyType == t.keyType && r.t.noDups == t.noDups && r.t.dupAbort == t.dupAbort
              && Valid(r.t, h)
  {
    var b := h(key);
    var c := t.buckets[b];
    if !allocOk then NotLinked
    else if t.noDups && HasKey(c, key) then
      if t.dupAbort then Aborted else NotLinked
    else
      var c' := c + [Entry(id, key, val)];
      var t' := t.(buckets := t.buckets[b := c'], count := t.count + 1);
      TotalLenUpdate(t.buckets, b, c');
      assert ChainOk(t', h, b, c') by {
        assert forall i :: 0 <= i < |c| ==> c'[i] == c[i] && c[i].id != id;
      }
      assert forall b2: Bucket :: ChainOk(t', h, b2, t'.buckets[b2]) by {
        forall b2: Bucket ensures ChainOk(t', h, b2, t'.buckets[b2]) {
          if b2 != b {
            assert ChainOk(t, h, b2, t.buckets[b2]);
          }
        }
      }
      Linked(t', t.count == 0)
  }

  /** References held per object. */
  type RefCounts = map<Val, int>

  function Refs(m: RefCounts, v: Val): int {
    if v in m then m[v] else 0
  }

  function Bump(m: RefCounts, v: Val, d: int): (r: RefCounts)
    ensures Refs(r, v) == Refs(m, v) + d
    ensures forall u :: u != v ==> Refs(r, u) == Refs(m, u)
  {
    m[v := Refs(m, v) + d]
  }

  /**
   * Reference-counted append: the entry keeps one reference on the
   * object; a rejected append gives it back, so failure leaves every
   * count where it was.
   */
  function AppendRefcnt(t: Table, h: Key -> Bucket, key: Key, val: Val, id: EntryId, allocOk: bool, refs: RefCounts): (r: (AppendResult, RefCounts))
    requires Valid(t, h) && KeyFits(t.keyType, key) && FreshId(t, id)
    ensures r.0 == Append(t, h, key, val, id, allocOk)
    ensures r.0.NotLinked? ==> forall u :: Refs(r.1, u) == Refs(refs, u)
    ensures !r.0.NotLinked? ==> Refs(r.1, val) == Refs(refs, val) + 1
    ensures forall u :: u != val ==> Refs(r.1, u) == Refs(refs, u)
  {
    var held := Bump(refs, val, 1);
    var res := Append(t, h, key, val, id, allocOk);
    if res.NotLinked? then (res, Bump(held, val, -1)) else (res, held)
  }

  // ---------------------------------------------------------------- find and remove

  /**
   * Lookup: the value of the first entry of the key's chain with an equal
   * key, with one reference taken for the caller; no entry, no reference.
   */
  function Find(t: Table, h: Key -> Bucket, key: Key, refs: RefCounts): (r: (Option<Val>, RefCounts))
    requires Valid(t, h) && KeyFits(t.keyType, key)
    ensures r.0.Some? <==> HasKey(t.buckets[h(key)], key)
    ensures r.0.Some? ==>
              var c := t.buckets[h(key)];
              && r.0.value == c[FirstMatch(c, key)].val
              && r.1 == Bump(refs, r.0.value, 1)
    ensures r.0.None? ==> r.1 == refs
  {
    var c := t.buckets[h(key)];
    var i := FirstMatch(c, key);
    if i == |c| then (None, refs) else (Some(c[i].val), Bump(refs, c[i].val, 1))
  }

  datatype Removed = Removed(t: Table, last: bool)

  /** Removing a position of a chain keeps the chain well-formed. */
  lemma DeleteKeepsChain(t: Table, h: Key -> Bucket, b: Bucket, c: seq<Entry>, i: nat)
    requires i < |c| && ChainOk(t, h, b, c)
    ensures ChainOk(t, h, b, c[..i] + c[i + 1..])
  {
    var d := c[..i] + c[i + 1..];
    assert forall p :: 0 <= p < |d| ==> d[p] == c[if p < i then p else p + 1];
  }

  /**
   * Unlinking the entry at position `i` of bucket `b`: the chain loses
   * exactly that entry, the counter drops by one, and `last` reports that
   * the table became empty.
   */
  function RemoveAt(t: Table, h: Key -> Bucket, b: Bucket, i: nat): (r: Removed)
    requires Valid(t, h) && i < |t.buckets[b]|
    ensures r.t.buckets == t.buckets[b := t.buckets[b][..i] + t.buckets[b][i + 1..]]
    ensures r.t.count == t.count - 1
    ensures r.last <==> r.t.count == 0
    ensures r.t.keyType == t.keyType && r.t.noDups == t.noDups && r.t.dupAbort == t.dupAbort
    ensures Valid(r.t, h)
  {
    var c := t.buckets[b];
    var c' := c[..i] + c[i + 1..];
    var t' := t.(buckets := t.buckets[b := c'], count := t.count - 1);
    TotalLenUpdate(t.buckets, b, c');
    DeleteKeepsChain(t, h, b, c, i);
    assert forall b2: Bucket :: ChainOk(t', h, b2, t'.buckets[b2]) by {
      forall b2: Bucket ensures ChainOk(t', h, b2, t'.buckets[b2]) {
        if b2 != b {
          assert ChainOk(t, h, b2, t.buckets[b2]);
        }
      }
    }
    Removed(t', t'.count == 0)
  }

  /** Position of entry `id` in chain `c`, or |c|. */
  function IdIndex(c: seq<Entry>, id: EntryId): (i: nat)
    ensures i <= |c|
    ensures forall j :: 0 <= j < i ==> c[j].id != id
    ensures i < |c| ==> c[i].id == id
  {
    if |c| == 0 then 0
    else if c[0].id == id then 0
    else 1 + IdIndex(c[1..], id)
  }

  /**
   * Removal of a known entry (found through its key's bucket): the entry
   * leaves its chain, the counter drops by one, and its reference on the
   * object is released.
   */
  function Remove(t: Table, h: Key -> Bucket, key: Key, id: EntryId, refs: RefCounts): (r: (Table, RefCounts))
    requires Valid(t, h) && KeyFits(t.keyType, key)
    requires IdIndex(t.buckets[h(key)], id) < |t.buckets[h(key)]|
    ensures var c := t.buckets[h(key)];
            var i := IdIndex(c, id);
            && r.0.buckets == t.buckets[h(key) := c[..i] + c[i + 1..]]
            && r.0.count == t.count - 1
            && r.1 == Bump(refs, c[i].val, -1)
    ensures Valid(r.0, h)
  {
    var c := t.buckets[h(key)];
    var i := IdIndex(c, id);
    (RemoveAt(t, h, h(key), i).t, Bump(refs, c[i].val, -1))
  }

  datatype RemoveByKeyResult = RemoveByKeyResult(t: Table, val: Option<Val>, last: bool, refs: RefCounts)

  /**
   * Removal by key: the first entry of the key's chain with an equal key
   * is unlinked, its reference released and its object returned; with no
   * such entry nothing changes.
   */
  function RemoveByKey(t: Table, h: Key -> Bucket, key: Key, refs: RefCounts): (r: RemoveByKeyResult)
    requires Valid(t, h) && KeyFits(t.keyType, key)
    ensures r.val.Some? <==> HasKey(t.buckets[h(key)], key)
    ensures r.val.None? ==> r == RemoveByKeyResult(t, None, false, refs)
    ensures r.val.Some? ==>
              var c := t.buckets[h(key)];
              var i := FirstMatch(c, key);
              && r.val.value == c[i].val
              && r.t.buckets == t.buckets[h(key) := c[..i] + c[i + 1..]]
              && r.t.count == t.count - 1
              && (r.last <==> r.t.count == 0)
              && r.refs == Bump(refs, c[i].val, -1)
    ensures Valid(r.t, h)
  {
    var c := t.buckets[h(key)];
    var i := FirstMatch(c, key);
    if i == |c| then RemoveByKeyResult(t, None, false, refs)
    else
      var rm := RemoveAt(t, h, h(key), i);
      RemoveByKeyResult(rm.t, Some(c[i].val), rm.last, Bump(refs, c[i].val, -1))
  }

  /** The entry counter, read under the lock. */
  function GetLength(t: Table, h: Key -> Bucket): (n: int)
    requires Valid(t, h)
    ensures n == TotalLen(t.buckets) && n >= 0
  {
    t.count
  }

  // ---------------------------------------------------------------- traversal

  /** The entries of `c` whose mask bit is set, in order. */
  function Select(c: seq<Entry>, m: seq<bool>): (r: seq<Entry>)
    requires |m| == |c|
    ensures |r| <= |c|
  {
    if |c| == 0 then [] else (if m[0] then [c[0]] else []) + Select(c[1..], m[1..])
  }

  function Not(m: seq<bool>): (r: seq<bool>)
    ensures |r| == |m| && forall i :: 0 <= i < |m| ==> r[i] == !m[i]
  {
    seq(|m|, i requires 0 <= i < |m| => !m[i])
  }

  lemma {:induction false} SelectMembers(c: seq<Entry>, m: seq<bool>)
    requires |m| == |c|
    ensures forall e :: e in Select(c, m) ==> e in c
  {
    if |c| > 0 {
      SelectMembers(c[1..], m[1..]);
    }
  }

  lemma {:induction false} SelectAll(c: seq<Entry>, m: seq<bool>)
    requires |m| == |c| && forall i :: 0 <= i < |m| ==> m[i]
    ensures Select(c, m) == c
  {
    if |c| > 0 {
      SelectAll(c[1..], m[1..]);
      assert c == [c[0]] + c[1..];
    }
  }

  lemma {:induction false} SelectNone(c: seq<Entry>, m: seq<bool>)
    requires |m| == |c| && forall i :: 0 <= i < |m| ==> !m[i]
    ensures Select(c, m) == []
  {
    if |c| > 0 {
      SelectNone(c[1..], m[1..]);
    }
  }

  /** A mask splits a chain: kept and dropped entries together are the chain. */
  lemma {:induction false} SelectSplit(c: seq<Entry>, m: seq<bool>)
    requires |m| == |c|
    ensures |Select(c, m)| + |Select(c, Not(m))| == |c|
    ensures multiset(Select(c, m)) + multiset(Select(c, Not(m))) == multiset(c)
  {
    if |c| > 0 {
      assert Not(m)[1..] == Not(m[1..]);
      SelectSplit(c[1..], m[1..]);
      assert c == [c[0]] + c[1..];
    }
  }

  lemma {:induction false} SelectKeepsIds(c: seq<Entry>, m: seq<bool>)
    requires |m| == |c| && UniqueIds(c)
    ensures UniqueIds(Select(c, m))
  {
    if |c| > 0 {
      var tail := c[1..];
      SelectKeepsIds(tail, m[1..]);
      SelectMembers(tail, m[1..]);
      if m[0] {
        var rest := Select(tail, m[1..]);
        var r := [c[0]] + rest;
        forall j | 0 < j < |r| ensures r[0].id != r[j].id {
          assert r[j] in tail;
        }
      }
    }
  }

  lemma {:induction false} SelectKeepsKeys(c: seq<Entry>, m: seq<bool>)
    requires |m| == |c| && UniqueKeys(c)
    ensures UniqueKeys(Select(c, m))
  {
    if |c| > 0 {
      var tail := c[1..];
      SelectKeepsKeys(tail, m[1..]);
      SelectMembers(tail, m[1..]);
      if m[0] {
        var rest := Select(tail, m[1..]);
        var r := [c[0]] + rest;
        forall j | 0 < j < |r| ensures r[0].key != r[j].key {
          assert r[j] in tail;
        }
      }
    }
  }

  /** Dropping entries keeps a chain well-formed. */
  lemma SelectKeepsChain(t: Table, h: Key -> Bucket, b: Bucket, c: seq<Entry>, m: seq<bool>)
    requires |m| == |c| && ChainOk(t, h, b, c)
    ensures ChainOk(t, h, b, Select(c, m))
  {
    SelectMembers(c, m);
    SelectKeepsIds(c, m);
    if t.noDups {
      SelectKeepsKeys(c, m);
    }
  }

  /** A callback's verdict on a visited entry: unlink it, stop the chain, or both. */
  datatype Verdict = Verdict(del: bool, brk: bool)

  /** Entries a scan hands to the callback: all of them, or only those with the given key. */
  predicate Selected(only: Option<Key>, e: Entry) {
    only.None? || e.key == only.value
  }

  /** Outcome of scanning a chain: which entries stay, how far the scan got, the callback's state. */
  datatype ChainScan<S> = ChainScan(keep: seq<bool>, reached: nat, st: S)

  /**
   * One chain of a traversal, in link order: each selected entry goes to
   * the callback with the caller's state; DEL unlinks it, BRK ends the
   * chain with the rest left in place. Entries not selected are skipped
   * and stay.
   */
  function ScanChain<S>(c: seq<Entry>, only: Option<Key>, f: (Val, S) -> (Verdict, S), st: S): (r: ChainScan<S>)
    ensures |r.keep| == |c| && r.reached <= |c|
    ensures forall i :: 0 <= i < |c| && !r.keep[i] ==> i < r.reached && Selected(only, c[i])
    ensures forall i :: r.reached <= i < |c| ==> r.keep[i]
  {
    if |c| == 0 then ChainScan([], 0, st)
    else if !Selected(only, c[0]) then
      var rest := ScanChain(c[1..], only, f, st);
      ChainScan([true] + rest.keep, rest.reached + 1, rest.st)
    else
      var (v, st1) := f(c[0].val, st);
      if v.brk then ChainScan([!v.del] + seq(|c| - 1, _ => true), 1, st1)
      else
        var rest := ScanChain(c[1..], only, f, st1);
        ChainScan([!v.del] + rest.keep, rest.reached + 1, rest.st)
  }

  /** The callback's state after a selected entry, or unchanged past one that is skipped. */
  function StepState<S>(only: Option<Key>, f: (Val, S) -> (Verdict, S), e: Entry, st: S): S {
    if Selected(only, e) then f(e.val, st).1 else st
  }

  /**
   * The state the callback holds on reaching entry `i` of a chain, every
   * selected entry before it having been visited.
   */
  function StateAt<S>(c: seq<Entry>, only: Option<Key>, f: (Val, S) -> (Verdict, S), st: S, i: nat): S
    requires i <= |c|
    decreases i
  {
    if i == 0 then st else StateAt(c[1..], only, f, StepState(only, f, c[0], st), i - 1)
  }

  /** The verdict entry `i` draws when the scan reaches it. */
  function VerdictAt<S>(c: seq<Entry>, only: Option<Key>, f: (Val, S) -> (Verdict, S), st: S, i: nat): Verdict
    requires i < |c|
  {
    f(c[i].val, StateAt(c, only, f, st, i)).0
  }

  /** Entry `i` is handed to the callback and answers BRK. */
  predicate BreaksAt<S>(c: seq<Entry>, only: Option<Key>, f: (Val, S) -> (Verdict, S), st: S, i: nat)
    requires i < |c|
  {
    Selected(only, c[i]) && VerdictAt(c, only, f, st, i).brk
  }

  /**
   * A chain scan against the callback's verdicts: the scan reaches every
   * entry up to and including the first selected one that answers BRK
   * (all of them if none does), an entry is unlinked exactly when it was
   * reached, selected and answered DEL, and the final state is the one
   * the reached entries leave.
   */
  ghost predicate FollowsVerdicts<S>(c: seq<Entry>, only: Option<Key>, f: (Val, S) -> (Verdict, S), st: S, r: ChainScan<S>)
    requires |r.keep| == |c| && r.reached <= |c|
  {
    && (forall i :: 0 <= i < |c| && i + 1 < r.reached ==> !BreaksAt(c, only, f, st, i))
    && (r.reached < |c| ==> 0 < r.reached && BreaksAt(c, only, f, st, r.reached - 1))
    && (forall i :: 0 <= i < |c| ==>
          (r.keep[i] <==> !(i < r.reached && Selected(only, c[i]) && VerdictAt(c, only, f, st, i).del)))
    && r.st == StateAt(c, only, f, st, r.reached)
  }

  lemma {:induction false} ScanChainFollowsVerdicts<S>(c: seq<Entry>, only: Option<Key>, f: (Val, S) -> (Verdict, S), st: S)
    ensures FollowsVerdicts(c, only, f, st, ScanChain(c, only, f, st))
  {
    if |c| > 0 {
      var st1 := StepState(only, f, c[0], st);
      if Selected(only, c[0]) && f(c[0].val, st).0.brk {
        HeadBreaks(c, only, f, st);
      } else {
        ScanChainFollowsVerdicts(c[1..], only, f, st1);
        HeadPasses(c, only, f, st);
      }
    }
  }

  /** A head answering BRK is the only entry the scan reaches. */
  lemma HeadBreaks<S>(c: seq<Entry>, only: Option<Key>, f: (Val, S) -> (Verdict, S), st: S)
    requires |c| > 0 && Selected(only, c[0]) && f(c[0].val, st).0.brk
    ensures FollowsVerdicts(c, only, f, st, ScanChain(c, only, f, st))
  {
    var r := ScanChain(c, only, f, st);
    assert StateAt(c, only, f, st, 1) == StepState(only, f, c[0], st);
    assert VerdictAt(c, only, f, st, 0) == f(c[0].val, st).0;
    assert r.reached == 1 && r.st == StepState(only, f, c[0], st);
    assert forall i :: 0 < i < |c| ==> r.keep[i];
  }

  /** Past a head that does not answer BRK, the scan follows the tail's verdicts. */
  lemma HeadPasses<S>(c: seq<Entry>, only: Option<Key>, f: (Val, S) -> (Verdict, S), st: S)
    requires |c| > 0 && !(Selected(only, c[0]) && f(c[0].val, st).0.brk)
    requires FollowsVerdicts(c[1..], only, f, StepState(only, f, c[0], st),
                             ScanChain(c[1..], only, f, StepState(only, f, c[0], st)))
    ensures FollowsVerdicts(c, only, f, st, ScanChain(c, only, f, st))
  {
    ShiftVerdicts(c, only, f, st);
    HeadPassesReach(c, only, f, st);
    HeadPassesKeep(c, only, f, st);
  }

  lemma HeadPassesReach<S>(c: seq<Entry>, only: Option<Key>, f: (Val, S) -> (Verdict, S), st: S)
    requires |c| > 0 && !(Selected(only, c[0]) && f(c[0].val, st).0.brk)
    requires FollowsVerdicts(c[1..], only, f, StepState(only, f, c[0], st),
                             ScanChain(c[1..], only, f, StepState(only, f, c[0], st)))
    ensures var r := ScanChain(c, only, f, st);
            && (forall i :: 0 <= i < |c| && i + 1 < r.reached ==> !BreaksAt(c, only, f, st, i))
            && (r.reached < |c| ==> 0 < r.reached && BreaksAt(c, only, f, st, r.reached - 1))
            && r.st == StateAt(c, only, f, st, r.reached)
  {
    var r := ScanChain(c, only, f, st);
    var st1 := StepState(only, f, c[0], st);
    var tail := c[1..];
    var rest := ScanChain(tail, only, f, st1);
    assert VerdictAt(c, only, f, st, 0) == f(c[0].val, st).0;
    ShiftVerdicts(c, only, f, st);
    assert r.reached == rest.reached + 1 && r.st == rest.st;
    forall i | 0 < i < |c| && i + 1 < r.reached
      ensures !BreaksAt(c, only, f, st, i)
    {
      assert BreaksAt(c, only, f, st, i) == BreaksAt(tail, only, f, st1, i - 1);
    }
  }

  lemma HeadPassesKeep<S>(c: seq<Entry>, only: Option<Key>, f: (Val, S) -> (Verdict, S), st: S)
    requires |c| > 0 && !(Selected(only, c[0]) && f(c[0].val, st).0.brk)
    requires FollowsVerdicts(c[1..], only, f, StepState(only, f, c[0], st),
                             ScanChain(c[1..], only, f, StepState(only, f, c[0], st)))
    ensures var r := ScanChain(c, only, f, st);
            forall i :: 0 <= i < |c| ==>
              (r.keep[i] <==> !(i < r.reached && Selected(only, c[i]) && VerdictAt(c, only, f, st, i).del))
  {
    var r := ScanChain(c, only, f, st);
    var st1 := StepState(only, f, c[0], st);
    var tail := c[1..];
    var rest := ScanChain(tail, only, f, st1);
    assert VerdictAt(c, only, f, st, 0) == f(c[0].val, st).0;
    ShiftVerdicts(c, only, f, st);
    assert r.reached == rest.reached + 1;
    assert r.keep[1..] == rest.keep;
    forall i | 0 < i < |c|
      ensures r.keep[i] <==> !(i < r.reached && Selected(only, c[i]) && VerdictAt(c, only, f, st, i).del)
    {
      assert r.keep[i] == rest.keep[i - 1] && c[i] == tail[i - 1];
    }
  }

  /** Past the head, a chain's states and verdicts are those of its tail, started from the head's state. */
  lemma ShiftVerdicts<S>(c: seq<Entry>, only: Option<Key>, f: (Val, S) -> (Verdict, S), st: S)
    requires |c| > 0
    ensures forall i :: 0 <= i < |c| ==>
              StateAt(c, only, f, st, i + 1) == StateAt(c[1..], only, f, StepState(only, f, c[0], st), i)
    ensures forall i :: 0 <= i < |c| - 1 ==>
              && VerdictAt(c, only, f, st, i + 1) == VerdictAt(c[1..], only, f, StepState(only, f, c[0], st), i)
              && BreaksAt(c, only, f, st, i + 1) == BreaksAt(c[1..], only, f, StepState(only, f, c[0], st), i)
  {
    var st1 := StepState(only, f, c[0], st);
    forall i | 0 <= i < |c| - 1
      ensures VerdictAt(c, only, f, st, i + 1) == VerdictAt(c[1..], only, f, st1, i)
    {
      assert c[i + 1] == c[1..][i];
    }
  }

  /** All entries, bucket after bucket, each chain in link order. */
  function Contents(bs: seq<seq<Entry>>): (es: seq<Entry>)
    ensures |es| == TotalLen(bs)
  {
    if |bs| == 0 then [] else Contents(bs[..|bs| - 1]) + bs[|bs| - 1]
  }

  predicate MasksFit(bs: seq<seq<Entry>>, ms: seq<seq<bool>>) {
    |ms| == |bs| && forall b :: 0 <= b < |bs| ==> |ms[b]| == |bs[b]|
  }

  /** The chains after a scan. */
  function Kept(bs: seq<seq<Entry>>, ms: seq<seq<bool>>): (r: seq<seq<Entry>>)
    requires MasksFit(bs, ms)
    ensures |r| == |bs| && forall b :: 0 <= b < |bs| ==> r[b] == Select(bs[b], ms[b])
  {
    seq(|bs|, b requires 0 <= b < |bs| => Select(bs[b], ms[b]))
  }

  /** The entries a scan unlinked, bucket after bucket. */
  function Dropped(bs: seq<seq<Entry>>, ms: seq<seq<bool>>): seq<Entry>
    requires MasksFit(bs, ms)
  {
    if |bs| == 0 then []
    else Dropped(bs[..|bs| - 1], ms[..|bs| - 1]) + Select(bs[|bs| - 1], Not(ms[|bs| - 1]))
  }

  lemma {:induction false} KeptDroppedSplit(bs: seq<seq<Entry>>, ms: seq<seq<bool>>)
    requires MasksFit(bs, ms)
    ensures TotalLen(Kept(bs, ms)) + |Dropped(bs, ms)| == TotalLen(bs)
    ensures multiset(Contents(Kept(bs, ms))) + multiset(Dropped(bs, ms)) == multiset(Contents(bs))
  {
    if |bs| > 0 {
      var n := |bs| - 1;
      KeptDroppedSplit(bs[..n], ms[..n]);
      assert Kept(bs, ms)[..n] == Kept(bs[..n], ms[..n]);
      SelectSplit(bs[n], ms[n]);
    }
  }

  datatype TableScan<S> = TableScan(masks: seq<seq<bool>>, st: S)

  /** Chains scanned from the first bucket to the last, the state threaded through. */
  function ScanBuckets<S>(bs: seq<seq<Entry>>, only: Option<Key>, f: (Val, S) -> (Verdict, S), st: S): (r: TableScan<S>)
    ensures MasksFit(bs, r.masks)
    ensures forall b, i :: 0 <= b < |bs| && 0 <= i < |bs[b]| && !r.masks[b][i] ==> Selected(only, bs[b][i])
  {
    if |bs| == 0 then TableScan([], st)
    else
      var n := |bs| - 1;
      var init := ScanBuckets(bs[..n], only, f, st);
      var last := ScanChain(bs[n], only, f, init.st);
      TableScan(init.masks + [last.keep], last.st)
  }

  /** Each bucket's chain is scanned with the state the buckets before it left. */
  lemma {:induction false} ScanBucketsInOrder<S>(bs: seq<seq<Entry>>, only: Option<Key>, f: (Val, S) -> (Verdict, S), st: S)
    ensures var r := ScanBuckets(bs, only, f, st);
            forall b :: 0 <= b < |bs| ==>
              r.masks[b] == ScanChain(bs[b], only, f, ScanBuckets(bs[..b], only, f, st).st).keep
  {
    if |bs| > 0 {
      var n := |bs| - 1;
      var init := ScanBuckets(bs[..n], only, f, st);
      var last := ScanChain(bs[n], only, f, init.st);
      var ms := ScanBuckets(bs, only, f, st).masks;
      assert ms == init.masks + [last.keep];
      ScanBucketsInOrder(bs[..n], only, f, st);
      forall b | 0 <= b < |bs|
        ensures ms[b] == ScanChain(bs[b], only, f, ScanBuckets(bs[..b], only, f, st).st).keep
      {
        if b < n {
          assert ms[b] == init.masks[b];
          assert bs[..n][b] == bs[b] && bs[..n][..b] == bs[..b];
        } else {
          assert bs[..b] == bs[..n];
        }
      }
    }
  }

  /** The references the given entries held, released one each. */
  function Release(refs: RefCounts, es: seq<Entry>): (r: RefCounts)
    ensures forall v :: Refs(r, v) == Refs(refs, v) - multiset(ValsOf(es))[v]
  {
    if |es| == 0 then refs
    else
      assert ValsOf(es) == ValsOf(es[..|es| - 1]) + [es[|es| - 1].val];
      Bump(Release(refs, es[..|es| - 1]), es[|es| - 1].val, -1)
  }

  function ValsOf(es: seq<Entry>): (vs: seq<Val>)
    ensures |vs| == |es|
    ensures forall i :: 0 <= i < |es| ==> vs[i] == es[i].val
  {
    seq(|es|, i requires 0 <= i < |es| => es[i].val)
  }

  /** The table after dropping entries by masks is still valid. */
  lemma KeptValid(t: Table, h: Key -> Bucket, ms: seq<seq<bool>>)
    requires Valid(t, h) && MasksFit(t.buckets, ms)
    ensures Valid(t.(buckets := Kept(t.buckets, ms), count := TotalLen(Kept(t.buckets, ms))), h)
  {
    var t' := t.(buckets := Kept(t.buckets, ms), count := TotalLen(Kept(t.buckets, ms)));
    forall b: Bucket
      ensures ChainOk(t', h, b, t'.buckets[b])
    {
      assert ChainOk(t, h, b, t.buckets[b]);
      SelectKeepsChain(t, h, b, t.buckets[b], ms[b]);
    }
  }

  datatype ForeachResult<S> = ForeachResult(t: Table, st: S, deleted: seq<Entry>, last: bool, refs: RefCounts)

  datatype Applied = Applied(t: Table, deleted: seq<Entry>, refs: RefCounts)

  /** Unlinking the entries the masks drop, releasing one reference for each. */
  function ApplyMasks(t: Table, h: Key -> Bucket, ms: seq<seq<bool>>, refs: RefCounts): (r: Applied)
    requires Valid(t, h) && MasksFit(t.buckets, ms)
    ensures Valid(r.t, h)
    ensures r.t.keyType == t.keyType && r.t.noDups == t.noDups && r.t.dupAbort == t.dupAbort
    ensures r.t.buckets == Kept(t.buckets, ms) && r.deleted == Dropped(t.buckets, ms)
    ensures r.t.count == t.count - |r.deleted|
    ensures multiset(Contents(r.t.buckets)) + multiset(r.deleted) == multiset(Contents(t.buckets))
    ensures forall v :: Refs(r.refs, v) == Refs(refs, v) - multiset(ValsOf(r.deleted))[v]
  {
    var kept := Kept(t.buckets, ms);
    var gone := Dropped(t.buckets, ms);
    KeptValid(t, h, ms);
    KeptDroppedSplit(t.buckets, ms);
    Applied(t.(buckets := kept, count := TotalLen(kept)), gone, Release(refs, gone))
  }

  /**
   * Traversal of the whole table: every chain in bucket order, each
   * visited entry given to the callback; DEL unlinks the entry and
   * releases its reference, BRK ends only the current chain. An empty
   * table is left untouched without calling back. `last` reports that the
   * scan emptied the table.
   */
  function Foreach<S>(t: Table, h: Key -> Bucket, f: (Val, S) -> (Verdict, S), st: S, refs: RefCounts): (r: ForeachResult<S>)
    requires Valid(t, h)
    ensures t.count == 0 ==> r == ForeachResult(t, st, [], false, refs)
    ensures Valid(r.t, h)
    ensures r.t.keyType == t.keyType && r.t.noDups == t.noDups && r.t.dupAbort == t.dupAbort
    ensures r.t.count == t.count - |r.deleted|
    ensures multiset(Contents(r.t.buckets)) + multiset(r.deleted) == multiset(Contents(t.buckets))
    ensures r.last <==> |r.deleted| > 0 && r.t.count == 0
    ensures forall v :: Refs(r.refs, v) == Refs(refs, v) - multiset(ValsOf(r.deleted))[v]
    ensures t.count > 0 ==>
              var sc := ScanBuckets(t.buckets, None, f, st);
              r.t.buckets == Kept(t.buckets, sc.masks) && r.deleted == Dropped(t.buckets, sc.masks) && r.st == sc.st
  {
    if t.count == 0 then ForeachResult(t, st, [], false, refs)
    else
      var sc := ScanBuckets(t.buckets, None, f, st);
      var a := ApplyMasks(t, h, sc.masks, refs);
      ForeachResult(a.t, sc.st, a.deleted, |a.deleted| > 0 && a.t.count == 0, a.refs)
  }

  /** Unselected entries survive a masked scan. */
  lemma {:induction false} UnselectedKept(c: seq<Entry>, m: seq<bool>, only: Option<Key>)
    requires |m| == |c|
    requires forall i :: 0 <= i < |c| && !m[i] ==> Selected(only, c[i])
    ensures forall e :: e in Select(c, Not(m)) ==> Selected(only, e)
    ensures forall e :: e in c && !Selected(only, e) ==> e in Select(c, m)
  {
    if |c| > 0 {
      assert Not(m)[1..] == Not(m[1..]);
      UnselectedKept(c[1..], m[1..], only);
      assert c == [c[0]] + c[1..];
    }
  }

  /** The table with one chain cut down to the entries its mask keeps. */
  function DropInChain(t: Table, h: Key -> Bucket, b: Bucket, m: seq<bool>): (r: Table)
    requires Valid(t, h) && |m| == |t.buckets[b]|
    ensures Valid(r, h)
    ensures r.keyType == t.keyType && r.noDups == t.noDups && r.dupAbort == t.dupAbort
    ensures r.buckets[b] == Select(t.buckets[b], m)
    ensures forall b2: Bucket :: b2 != b ==> r.buckets[b2] == t.buckets[b2]
    ensures r.count == t.count - |Select(t.buckets[b], Not(m))|
    ensures multiset(r.buckets[b]) + multiset(Select(t.buckets[b], Not(m))) == multiset(t.buckets[b])
  {
    var c := t.buckets[b];
    var kept := Select(c, m);
    SelectSplit(c, m);
    TotalLenUpdate(t.buckets, b, kept);
    assert ChainOk(t, h, b, c);
    SelectKeepsChain(t, h, b, c, m);
    var t' := t.(buckets := t.buckets[b := kept], count := t.count - |Select(c, Not(m))|);
    assert forall b2: Bucket :: ChainOk(t', h, b2, t'.buckets[b2]) by {
      forall b2: Bucket ensures ChainOk(t', h, b2, t'.buckets[b2]) {
        if b2 != b {
          assert ChainOk(t, h, b2, t.buckets[b2]);
        }
      }
    }
    t'
  }

  /** Unlinking the entries of one chain that a mask drops, releasing one reference for each. */
  function ApplyChainMask(t: Table, h: Key -> Bucket, key: Key, m: seq<bool>, refs: RefCounts): (r: Applied)
    requires Valid(t, h) && KeyFits(t.keyType, key)
    requires |m| == |t.buckets[h(key)]|
    requires forall i :: 0 <= i < |m| && !m[i] ==> t.buckets[h(key)][i].key == key
    ensures Valid(r.t, h)
    ensures r.t.keyType == t.keyType && r.t.noDups == t.noDups && r.t.dupAbort == t.dupAbort
    ensures forall b: Bucket :: b != h(key) ==> r.t.buckets[b] == t.buckets[b]
    ensures r.t.buckets[h(key)] == Select(t.buckets[h(key)], m)
    ensures r.deleted == Select(t.buckets[h(key)], Not(m))
    ensures r.t.count == t.count - |r.deleted|
    ensures multiset(r.t.buckets[h(key)]) + multiset(r.deleted) == multiset(t.buckets[h(key)])
    ensures forall e :: e in r.deleted ==> e.key == key
    ensures forall e :: e in t.buckets[h(key)] && e.key != key ==> e in r.t.buckets[h(key)]
    ensures forall v :: Refs(r.refs, v) == Refs(refs, v) - multiset(ValsOf(r.deleted))[v]
  {
    var c := t.buckets[h(key)];
    var gone := Select(c, Not(m));
    UnselectedKept(c, m, Some(key));
    Applied(DropInChain(t, h, h(key), m), gone, Release(refs, gone))
  }

  /**
   * Traversal of one key: only the key's chain, only entries with an
   * equal key; DEL and BRK as in Foreach. Nothing happens on an empty
   * table or an empty chain.
   */
  function ForeachKey<S>(t: Table, h: Key -> Bucket, key: Key, f: (Val, S) -> (Verdict, S), st: S, refs: RefCounts): (r: ForeachResult<S>)
    requires Valid(t, h) && KeyFits(t.keyType, key)
    ensures t.count == 0 || t.buckets[h(key)] == [] ==> r == ForeachResult(t, st, [], false, refs)
    ensures Valid(r.t, h)
    ensures r.t.keyType == t.keyType && r.t.noDups == t.noDups && r.t.dupAbort == t.dupAbort
    ensures forall b: Bucket :: b != h(key) ==> r.t.buckets[b] == t.buckets[b]
    ensures r.t.count == t.count - |r.deleted|
    ensures multiset(r.t.buckets[h(key)]) + multiset(r.deleted) == multiset(t.buckets[h(key)])
    ensures forall e :: e in r.deleted ==> e.key == key
    ensures forall e :: e in t.buckets[h(key)] && e.key != key ==> e in r.t.buckets[h(key)]
    ensures !r.last
    ensures forall v :: Refs(r.refs, v) == Refs(refs, v) - multiset(ValsOf(r.deleted))[v]
    ensures t.count > 0 && t.buckets[h(key)] != [] ==>
              var c := t.buckets[h(key)];
              var sc := ScanChain(c, Some(key), f, st);
              && r.t.buckets[h(key)] == Select(c, sc.keep)
              && r.deleted == Select(c, Not(sc.keep))
              && r.st == sc.st
  {
    if t.count == 0 || t.buckets[h(key)] == [] then ForeachResult(t, st, [], false, refs)
    else
      var sc := ScanChain(t.buckets[h(key)], Some(key), f, st);
      var a := ApplyChainMask(t, h, key, sc.keep, refs);
      ForeachResult(a.t, sc.st, a.deleted, false, a.refs)
  }

  // ---------------------------------------------------------------- purge

  /** The purge callback: delete every entry, counting them. */
  function PurgeVisit(v: Val, n: int): (Verdict, int) {
    (Verdict(true, false), n + 1)
  }

  lemma {:induction false} PurgeChain(c: seq<Entry>, n: int)
    ensures var r := ScanChain(c, None, PurgeVisit, n);
            (forall i :: 0 <= i < |c| ==> !r.keep[i]) && r.st == n + |c|
  {
    if |c| > 0 {
      PurgeChain(c[1..], n + 1);
    }
  }

  lemma {:induction false} PurgeBuckets(bs: seq<seq<Entry>>, n: int)
    ensures var r := ScanBuckets(bs, None, PurgeVisit, n);
            && (forall b, i :: 0 <= b < |bs| && 0 <= i < |bs[b]| ==> !r.masks[b][i])
            && r.st == n + TotalLen(bs)
  {
    if |bs| > 0 {
      var k := |bs| - 1;
      PurgeBuckets(bs[..k], n);
      var init := ScanBuckets(bs[..k], None, PurgeVisit, n);
      PurgeChain(bs[k], init.st);
    }
  }

  /** With every entry dropped, the kept chains are empty and the dropped entries are the contents. */
  lemma {:induction false} DropAll(bs: seq<seq<Entry>>, ms: seq<seq<bool>>)
    requires MasksFit(bs, ms)
    requires forall b, i :: 0 <= b < |bs| && 0 <= i < |bs[b]| ==> !ms[b][i]
    ensures forall b :: 0 <= b < |bs| ==> Kept(bs, ms)[b] == []
    ensures Dropped(bs, ms) == Contents(bs)
  {
    forall b | 0 <= b < |bs| ensures Kept(bs, ms)[b] == [] {
      SelectNone(bs[b], ms[b]);
    }
    if |bs| > 0 {
      var n := |bs| - 1;
      DropAll(bs[..n], ms[..n]);
      SelectAll(bs[n], Not(ms[n]));
    }
  }

  lemma {:induction false} ZeroTotalEmpty(bs: seq<seq<Entry>>)
    requires TotalLen(bs) == 0
    ensures forall b :: 0 <= b < |bs| ==> bs[b] == []
  {
    if |bs| > 0 {
      ZeroTotalEmpty(bs[..|bs| - 1]);
      assert forall b :: 0 <= b < |bs| - 1 ==> bs[b] == bs[..|bs| - 1][b];
    }
  }

  /** The purge callback drops every entry and counts them. */
  lemma PurgeDropsAll(t: Table, h: Key -> Bucket, refs: RefCounts)
    requires Valid(t, h)
    ensures var r := Foreach(t, h, PurgeVisit, 0, refs);
            r.st == t.count && r.deleted == Contents(t.buckets) && forall b: Bucket :: r.t.buckets[b] == []
  {
    if t.count > 0 {
      PurgeNonEmpty(t, h, refs);
    } else {
      ZeroTotalEmpty(t.buckets);
    }
  }

  lemma PurgeNonEmpty(t: Table, h: Key -> Bucket, refs: RefCounts)
    requires Valid(t, h) && t.count > 0
    ensures Foreach(t, h, PurgeVisit, 0, refs).st == t.count
    ensures Foreach(t, h, PurgeVisit, 0, refs).deleted == Contents(t.buckets)
    ensures forall b: Bucket :: Foreach(t, h, PurgeVisit, 0, refs).t.buckets[b] == []
  {
    var sc := ScanBuckets(t.buckets, None, PurgeVisit, 0);
    PurgeBuckets(t.buckets, 0);
    assert sc.st == TotalLen(t.buckets) == t.count;
    DropAll(t.buckets, sc.masks);
    var a := ApplyMasks(t, h, sc.masks, refs);
    assert Foreach(t, h, PurgeVisit, 0, refs) == ForeachResult(a.t, sc.st, a.deleted, |a.deleted| > 0 && a.t.count == 0, a.refs);
  }

  datatype PurgeResult = PurgeResult(purged: int, t: Table, refs: RefCounts)

  /**
   * Purge: delete every entry through the traversal, counting them. The
   * count is the length before, the table ends empty and the reference of
   * every entry is released.
   */
  function Purge(t: Table, h: Key -> Bucket, refs: RefCounts): (r: PurgeResult)
    requires Valid(t, h)
    ensures r.purged == GetLength(t, h)
    ensures Valid(r.t, h) && GetLength(r.t, h) == 0
    ensures forall b: Bucket :: r.t.buckets[b] == []
    ensures forall v :: Refs(r.refs, v) == Refs(refs, v) - multiset(ValsOf(Contents(t.buckets)))[v]
  {
    var fe := Foreach(t, h, PurgeVisit, 0, refs);
    PurgeDropsAll(t, h, refs);
    PurgeResult(fe.st, fe.t, fe.refs)
  }

  // ---------------------------------------------------------------- properties

  /** A fresh key appended is found again, with the appended value. */
  lemma FindAfterAppend(t: Table, h: Key -> Bucket, key: Key, val: Val, id: EntryId, refs: RefCounts)
    requires Valid(t, h) && KeyFits(t.keyType, key) && FreshId(t, id)
    requires !HasKey(t.buckets[h(key)], key)
    ensures Append(t, h, key, val, id, true).Linked?
    ensures Find(Append(t, h, key, val, id, true).t, h, key, refs).0 == Some(val)
  {
    var c := t.buckets[h(key)];
    var c' := c + [Entry(id, key, val)];
    assert FirstMatch(c', key) == |c| by {
      FirstMatchAppend(c, Entry(id, key, val), key);
    }
  }

  /** Appending behind a chain moves no earlier match. */
  lemma {:induction false} FirstMatchAppend(c: seq<Entry>, e: Entry, k: Key)
    ensures FirstMatch(c, k) < |c| ==> FirstMatch(c + [e], k) == FirstMatch(c, k)
    ensures FirstMatch(c, k) == |c| && e.key == k ==> FirstMatch(c + [e], k) == |c|
  {
    if |c| > 0 {
      assert (c + [e])[1..] == c[1..] + [e];
      FirstMatchAppend(c[1..], e, k);
    }
  }

  /**
   * Without NODUPS a second entry for a key goes behind the first, so a
   * lookup keeps answering with the older value.
   */
  lemma FindAfterDuplicateAppend(t: Table, h: Key -> Bucket, key: Key, val: Val, id: EntryId, refs: RefCounts)
    requires Valid(t, h) && KeyFits(t.keyType, key) && FreshId(t, id) && !t.noDups
    requires HasKey(t.buckets[h(key)], key)
    ensures Append(t, h, key, val, id, true).Linked?
    ensures Find(Append(t, h, key, val, id, true).t, h, key, refs).0 == Find(t, h, key, refs).0
  {
    FirstMatchAppend(t.buckets[h(key)], Entry(id, key, val), key);
  }

  /** Removing by key right after appending a fresh key undoes the append. */
  lemma AppendThenRemoveByKey(t: Table, h: Key -> Bucket, key: Key, val: Val, id: EntryId, refs: RefCounts)
    requires Valid(t, h) && KeyFits(t.keyType, key) && FreshId(t, id)
    requires !HasKey(t.buckets[h(key)], key)
    ensures Append(t, h, key, val, id, true).Linked?
    ensures var r := RemoveByKey(Append(t, h, key, val, id, true).t, h, key, refs);
            r.val == Some(val) && r.t == t && r.refs == Bump(refs, val, -1)
  {
    var b := h(key);
    var c := t.buckets[b];
    var c' := c + [Entry(id, key, val)];
    FirstMatchAppend(c, Entry(id, key, val), key);
    assert c'[..|c|] + c'[|c| + 1..] == c;
    assert t.buckets[b := c'][b := c] == t.buckets;
  }

  /** With NODUPS, once a key is removed a lookup no longer finds it. */
  lemma RemoveByKeyThenFind(t: Table, h: Key -> Bucket, key: Key, refs: RefCounts)
    requires Valid(t, h) && KeyFits(t.keyType, key) && t.noDups
    ensures var r := RemoveByKey(t, h, key, refs);
            Find(r.t, h, key, refs).0.None?
  {
    var b := h(key);
    var c := t.buckets[b];
    var i := FirstMatch(c, key);
    if i < |c| {
      assert ChainOk(t, h, b, c);
      var d := c[..i] + c[i + 1..];
      forall p | 0 <= p < |d| ensures d[p].key != key {
        if p < i {
          assert d[p] == c[p];
        } else {
          assert d[p] == c[p + 1];
        }
      }
    }
  }

  /** The recording callback: keep every entry and note its value. */
  function Record(v: Val, seen: seq<Val>): (Verdict, seq<Val>) {
    (Verdict(false, false), seen + [v])
  }

  /** The first-only callback: note the value and break out of the chain. */
  function FirstOnly(v: Val, seen: seq<Val>): (Verdict, seq<Val>) {
    (Verdict(false, true), seen + [v])
  }

  lemma {:induction false} RecordChain(c: seq<Entry>, seen: seq<Val>)
    ensures var r := ScanChain(c, None, Record, seen);
            (forall i :: 0 <= i < |c| ==> r.keep[i]) && r.st == seen + ValsOf(c)
  {
    if |c| > 0 {
      RecordChain(c[1..], seen + [c[0].val]);
      assert ValsOf(c) == [c[0].val] + ValsOf(c[1..]);
    }
  }

  lemma {:induction false} RecordBuckets(bs: seq<seq<Entry>>, seen: seq<Val>)
    ensures var r := ScanBuckets(bs, None, Record, seen);
            && (forall b, i :: 0 <= b < |bs| && 0 <= i < |bs[b]| ==> r.masks[b][i])
            && r.st == seen + ValsOf(Contents(bs))
  {
    if |bs| > 0 {
      var n := |bs| - 1;
      RecordBuckets(bs[..n], seen);
      var init := ScanBuckets(bs[..n], None, Record, seen);
      var last := ScanChain(bs[n], None, Record, init.st);
      RecordChain(bs[n], init.st);
      var r := ScanBuckets(bs, None, Record, seen);
      assert r.masks == init.masks + [last.keep] && r.st == last.st;
      ValsOfConcat(Contents(bs[..n]), bs[n]);
      forall b, i | 0 <= b < |bs| && 0 <= i < |bs[b]|
        ensures r.masks[b][i]
      {
        if b < n {
          assert bs[..n][b] == bs[b] && r.masks[b] == init.masks[b];
        }
      }
    }
  }

  lemma ValsOfConcat(a: seq<Entry>, b: seq<Entry>)
    ensures ValsOf(a + b) == ValsOf(a) + ValsOf(b)
  {
    assert forall i :: 0 <= i < |a| + |b| ==> ValsOf(a + b)[i] == (ValsOf(a) + ValsOf(b))[i];
  }

  /** The values at the head of each non-empty chain, in bucket order. */
  function Heads(bs: seq<seq<Entry>>): seq<Val> {
    if |bs| == 0 then []
    else Heads(bs[..|bs| - 1]) + (if bs[|bs| - 1] == [] then [] else [bs[|bs| - 1][0].val])
  }

  lemma FirstOnlyChain(c: seq<Entry>, seen: seq<Val>)
    ensures var r := ScanChain(c, None, FirstOnly, seen);
            (forall i :: 0 <= i < |c| ==> r.keep[i]) && r.st == seen + (if c == [] then [] else [c[0].val])
  {
  }

  lemma {:induction false} FirstOnlyBuckets(bs: seq<seq<Entry>>, seen: seq<Val>)
    ensures var r := ScanBuckets(bs, None, FirstOnly, seen);
            && (forall b, i :: 0 <= b < |bs| && 0 <= i < |bs[b]| ==> r.masks[b][i])
            && r.st == seen + Heads(bs)
  {
    if |bs| > 0 {
      var n := |bs| - 1;
      FirstOnlyBuckets(bs[..n], seen);
      var init := ScanBuckets(bs[..n], None, FirstOnly, seen);
      FirstOnlyChain(bs[n], init.st);
    }
  }

  /** Masks that keep everything leave the chains as they were and drop nothing. */
  lemma {:induction false} KeepAll(bs: seq<seq<Entry>>, ms: seq<seq<bool>>)
    requires MasksFit(bs, ms)
    requires forall b, i :: 0 <= b < |bs| && 0 <= i < |bs[b]| ==> ms[b][i]
    ensures Kept(bs, ms) == bs && Dropped(bs, ms) == []
  {
    forall b | 0 <= b < |bs| ensures Kept(bs, ms)[b] == bs[b] {
      SelectAll(bs[b], ms[b]);
    }
    if |bs| > 0 {
      var n := |bs| - 1;
      KeepAll(bs[..n], ms[..n]);
      SelectNone(bs[n], Not(ms[n]));
    }
  }

  /**
   * A traversal whose callback neither deletes nor breaks visits every
   * value exactly once, bucket after bucket and each chain from head to
   * tail, and leaves the table as it was.
   */
  lemma ForeachVisitsAll(t: Table, h: Key -> Bucket, refs: RefCounts)
    requires Valid(t, h)
    ensures var r := Foreach(t, h, Record, [], refs);
            r.st == ValsOf(Contents(t.buckets)) && r.t == t && r.deleted == [] && r.refs == refs
  {
    if t.count > 0 {
      var sc := ScanBuckets(t.buckets, None, Record, []);
      RecordBuckets(t.buckets, []);
      KeepAll(t.buckets, sc.masks);
      var a := ApplyMasks(t, h, sc.masks, refs);
      assert Foreach(t, h, Record, [], refs) == ForeachResult(a.t, sc.st, a.deleted, |a.deleted| > 0 && a.t.count == 0, a.refs);
    } else {
      assert |Contents(t.buckets)| == 0;
    }
  }

  /**
   * BRK ends only the chain being scanned: a callback that always breaks
   * sees the head of every non-empty chain, in bucket order, and nothing
   * else.
   */
  lemma BreakEndsOnlyChain(t: Table, h: Key -> Bucket, refs: RefCounts)
    requires Valid(t, h) && t.count > 0
    ensures var r := Foreach(t, h, FirstOnly, [], refs);
            r.st == Heads(t.buckets) && r.t == t && r.deleted == []
  {
    var sc := ScanBuckets(t.buckets, None, FirstOnly, []);
    FirstOnlyBuckets(t.buckets, []);
    KeepAll(t.buckets, sc.masks);
    var a := ApplyMasks(t, h, sc.masks, refs);
    assert Foreach(t, h, FirstOnly, [], refs) == ForeachResult(a.t, sc.st, a.deleted, |a.deleted| > 0 && a.t.count == 0, a.refs);
  }

  /** A callback that never answers DEL keeps every entry of a chain. */
  lemma ChainWithoutDelete<S>(c: seq<Entry>, only: Option<Key>, f: (Val, S) -> (Verdict, S), st: S)
    requires forall v, s :: !f(v, s).0.del
    ensures forall i :: 0 <= i < |c| ==> ScanChain(c, only, f, st).keep[i]
  {
    ScanChainFollowsVerdicts(c, only, f, st);
  }

  /** A callback that always answers DEL and never BRK unlinks every entry of a chain. */
  lemma ChainDeletingAll<S>(c: seq<Entry>, f: (Val, S) -> (Verdict, S), st: S)
    requires forall v, s :: f(v, s).0.del && !f(v, s).0.brk
    ensures forall i :: 0 <= i < |c| ==> !ScanChain(c, None, f, st).keep[i]
  {
    ScanChainFollowsVerdicts(c, None, f, st);
    forall i | 0 <= i < |c| ensures VerdictAt(c, None, f, st, i).del {
    }
  }

  /**
   * Whatever the callback computes, if it never answers DEL the
   * traversal leaves the table and every reference count as they were.
   */
  lemma ForeachWithoutDelete<S>(t: Table, h: Key -> Bucket, f: (Val, S) -> (Verdict, S), st: S, refs: RefCounts)
    requires Valid(t, h)
    requires forall v, s :: !f(v, s).0.del
    ensures var r := Foreach(t, h, f, st, refs);
            && r.t == t && r.deleted == [] && !r.last
            && forall v :: Refs(r.refs, v) == Refs(refs, v)
  {
    if t.count > 0 {
      var sc := ScanBuckets(t.buckets, None, f, st);
      ScanBucketsInOrder(t.buckets, None, f, st);
      forall b | 0 <= b < |t.buckets|
        ensures forall i :: 0 <= i < |t.buckets[b]| ==> sc.masks[b][i]
      {
        ChainWithoutDelete(t.buckets[b], None, f, ScanBuckets(t.buckets[..b], None, f, st).st);
      }
      KeepAll(t.buckets, sc.masks);
      var r := Foreach(t, h, f, st, refs);
      assert r.t.buckets == t.buckets && r.t.count == t.count;
    }
  }

  /**
   * Whatever state the callback threads, if it always answers DEL and
   * never BRK the traversal unlinks every entry, in traversal order.
   */
  lemma ForeachDeletingAll<S>(t: Table, h: Key -> Bucket, f: (Val, S) -> (Verdict, S), st: S, refs: RefCounts)
    requires Valid(t, h)
    requires forall v, s :: f(v, s).0.del && !f(v, s).0.brk
    ensures var r := Foreach(t, h, f, st, refs);
            && r.deleted == Contents(t.buckets)
            && (forall b: Bucket :: r.t.buckets[b] == [])
            && (r.last <==> t.count > 0)
  {
    if t.count > 0 {
      var sc := ScanBuckets(t.buckets, None, f, st);
      ScanBucketsInOrder(t.buckets, None, f, st);
      forall b | 0 <= b < |t.buckets|
        ensures forall i :: 0 <= i < |t.buckets[b]| ==> !sc.masks[b][i]
      {
        ChainDeletingAll(t.buckets[b], f, ScanBuckets(t.buckets[..b], None, f, st).st);
      }
      DropAll(t.buckets, sc.masks);
    } else {
      ZeroTotalEmpty(t.buckets);
    }
  }

  /** The values of a chain's entries with key `k`, in chain order. */
  function MatchVals(c: seq<Entry>, k: Key): seq<Val> {
    if |c| == 0 then []
    else (if c[0].key == k then [c[0].val] else []) + MatchVals(c[1..], k)
  }

  lemma {:induction false} RecordKeyChain(c: seq<Entry>, k: Key, seen: seq<Val>)
    ensures var r := ScanChain(c, Some(k), Record, seen);
            (forall i :: 0 <= i < |c| ==> r.keep[i]) && r.st == seen + MatchVals(c, k)
  {
    if |c| > 0 {
      if c[0].key == k {
        RecordKeyChain(c[1..], k, seen + [c[0].val]);
      } else {
        RecordKeyChain(c[1..], k, seen);
      }
    }
  }

  /** A keyed traversal sees exactly the values stored under that key, oldest first. */
  lemma ForeachKeyVisitsMatches(t: Table, h: Key -> Bucket, key: Key, refs: RefCounts)
    requires Valid(t, h) && KeyFits(t.keyType, key)
    ensures var r := ForeachKey(t, h, key, Record, [], refs);
            r.st == MatchVals(t.buckets[h(key)], key) && r.deleted == []
  {
    if t.count == 0 {
      ZeroTotalEmpty(t.buckets);
    } else if t.buckets[h(key)] != [] {
      KeyScanRecords(t, h, key, refs);
    }
  }

  lemma KeyScanRecords(t: Table, h: Key -> Bucket, key: Key, refs: RefCounts)
    requires Valid(t, h) && KeyFits(t.keyType, key) && t.count > 0 && t.buckets[h(key)] != []
    ensures var r := ForeachKey(t, h, key, Record, [], refs);
            r.st == MatchVals(t.buckets[h(key)], key) && r.deleted == []
  {
    var c := t.buckets[h(key)];
    var sc := ScanChain(c, Some(key), Record, []);
    RecordKeyChain(c, key, []);
    SelectNone(c, Not(sc.keep));
    var r := ForeachKey(t, h, key, Record, [], refs);
    assert r.deleted == Select(c, Not(sc.keep)) && r.st == sc.st;
  }
}

=== FILE: keying.dfy ===
/**
 * SRTP key derivation on handshake completion: the exported keying
 * material is laid out as client key, server key, client salt, server
 * salt (section 4.2 of RFC 5764) and split into one key-plus-salt string
 * per direction; the export buffer is scrubbed afterwards.
 */
module Keying {
  import opened Common
  import opened Suites

  /** Exporter label of section 4.2 of RFC 5764. */
  const ExporterLabel: string := "EXTRACTOR-dtls_srtp"

  /** Per-direction key strings (master key followed by master salt). */
  datatype KeyInfo = KeyInfo(suite: SuiteId, cliKey: seq<Byte>, srvKey: seq<Byte>)

  datatype KeyInfoResult =
    | KeysReady(info: KeyInfo, keymat: seq<Byte>)  // keymat: the export buffer after scrubbing
    | NoProfile                                    // no profile was negotiated: returns -1
    | ExportFailed                                 // the exporter failed: returns -1
    | Aborted                                      // the process aborts

  /** Overwrites a buffer with zeros; the source keeps the store from being elided. */
  function MemSecClean(buf: seq<Byte>): (r: seq<Byte>)
    ensures |r| == |buf|
    ensures AllZero(r)
  {
    Zeros(|buf|)
  }

  /** The exported block, built from its four parts in wire order. */
  function JoinKeyBlock(cliKey: seq<Byte>, srvKey: seq<Byte>, cliSalt: seq<Byte>, srvSalt: seq<Byte>): seq<Byte>
  {
    cliKey + srvKey + cliSalt + srvSalt
  }

  /**
   * Splits an exported block into the client and server key strings.
   * Re-joining the key and salt halves of the result gives the block back.
   */
  function SplitKeyBlock(keySize: nat, ivSize: nat, block: seq<Byte>): (r: (seq<Byte>, seq<Byte>))
    requires |block| == 2 * (keySize + ivSize)
    ensures |r.0| == keySize + ivSize && |r.1| == keySize + ivSize
    ensures JoinKeyBlock(r.0[..keySize], r.1[..keySize], r.0[keySize..], r.1[keySize..]) == block
  {
    var cli := block[..keySize] + block[2 * keySize .. 2 * keySize + ivSize];
    var srv := block[keySize .. 2 * keySize] + block[2 * keySize + ivSize ..];
    assert cli[..keySize] == block[..keySize];
    assert srv[..keySize] == block[keySize .. 2 * keySize];
    assert cli[keySize..] == block[2 * keySize .. 2 * keySize + ivSize];
    assert srv[keySize..] == block[2 * keySize + ivSize ..];
    assert block == block[..keySize] + block[keySize .. 2 * keySize]
                    + block[2 * keySize .. 2 * keySize + ivSize] + block[2 * keySize + ivSize ..];
    (cli, srv)
  }

  /** Splitting a block assembled from four parts recovers key-then-salt per side. */
  lemma SplitOfJoin(cliKey: seq<Byte>, srvKey: seq<Byte>, cliSalt: seq<Byte>, srvSalt: seq<Byte>)
    requires |cliKey| == |srvKey| && |cliSalt| == |srvSalt|
    ensures var k := |cliKey|;
            var iv := |cliSalt|;
            SplitKeyBlock(k, iv, JoinKeyBlock(cliKey, srvKey, cliSalt, srvSalt)) == (cliKey + cliSalt, srvKey + srvSalt)
  {
    var k := |cliKey|;
    var iv := |cliSalt|;
    var b := JoinKeyBlock(cliKey, srvKey, cliSalt, srvSalt);
    assert b[..k] == cliKey;
    assert b[k .. 2 * k] == srvKey;
    assert b[2 * k .. 2 * k + iv] == cliSalt;
    assert b[2 * k + iv ..] == srvSalt;
  }

  /** The exporter answer matches the length the source requests. */
  predicate ExportFits(profile: Option<nat>, exported: Option<seq<Byte>>) {
    profile.Some? && ProfileSuite(profile.value).Some? && exported.Some? ==>
      |exported.value| == 2 * MaterialSize(ProfileSuite(profile.value).value)
  }

  /**
   * Maps the negotiated profile to a suite, exports 2 * (key + salt)
   * bytes, splits them and scrubs the 256-byte export buffer `buf`.
   * The buffer-size checks never fire for a table row, so the only abort
   * is an unmapped profile.
   */
  function TlsSrtpKeyinfo(profile: Option<nat>, exported: Option<seq<Byte>>, buf: seq<Byte>): (r: KeyInfoResult)
    requires |buf| == KeymatBufLen
    requires ExportFits(profile, exported)
    ensures r.NoProfile? <==> profile.None?
    ensures r.Aborted? <==> profile.Some? && ProfileSuite(profile.value).None?
    ensures r.ExportFailed? <==> profile.Some? && ProfileSuite(profile.value).Some? && exported.None?
    ensures r.KeysReady? ==>
              && profile.Some? && exported.Some?
              && ProfileSuite(profile.value) == Some(r.info.suite)
              && |r.info.cliKey| == MaterialSize(r.info.suite) == |r.info.srvKey|
    ensures r.KeysReady? ==>
              var k := SuiteRow(r.info.suite).keySize;
              JoinKeyBlock(r.info.cliKey[..k], r.info.srvKey[..k], r.info.cliKey[k..], r.info.srvKey[k..]) == exported.value
    ensures r.KeysReady? ==> |r.keymat| == KeymatBufLen && AllZero(r.keymat)
  {
    if profile.None? then NoProfile
    else
      match ProfileSuite(profile.value)
      case None => Aborted
      case Some(id) =>
        var size := MaterialSize(id);
        if KeyBufLen < size || KeymatBufLen < 2 * size then Aborted
        else if exported.None? then ExportFailed
        else
          var keys := SplitKeyBlock(SuiteRow(id).keySize, SuiteRow(id).ivSize, exported.value);
          var filled := exported.value + buf[2 * size ..];
          KeysReady(KeyInfo(id, keys.0, keys.1), MemSecClean(filled))
  }
}

=== FILE: ssrc.dfy ===
/**
 * Decimal SSRC parsing as the mode handler does it: `strtoul(s, &ep, 10)`
 * on a 64-bit `unsigned long`, rejected when nothing was converted or
 * when characters remain, then truncated to `uint32_t`.
 */
module SsrcParse {
  import opened Common

  const ULongMax: nat := 0xFFFF_FFFF_FFFF_FFFF
  const ULongModulus: nat := 0x1_0000_0000_0000_0000

  /** `isspace` in the C locale. */
  predicate IsSpace(c: char) {
    c == ' ' || (9 <= c as int <= 13)
  }

  predicate IsDigit(c: char) {
    '0' <= c <= '9'
  }

  predicate AllDigits(d: string) {
    forall i :: 0 <= i < |d| ==> IsDigit(d[i])
  }

  /** Index of the first non-space character at or after `i`. */
  function SkipSpace(s: string, i: nat): (j: nat)
    requires i <= |s|
    ensures i <= j <= |s|
    ensures forall t :: i <= t < j ==> IsSpace(s[t])
    ensures j < |s| ==> !IsSpace(s[j])
    decreases |s| - i
  {
    if i < |s| && IsSpace(s[i]) then SkipSpace(s, i + 1) else i
  }

  /** Index of the first non-digit character at or after `i`. */
  function DigitsEnd(s: string, i: nat): (j: nat)
    requires i <= |s|
    ensures i <= j <= |s|
    ensures forall t :: i <= t < j ==> IsDigit(s[t])
    ensures j < |s| ==> !IsDigit(s[j])
    decreases |s| - i
  {
    if i < |s| && IsDigit(s[i]) then DigitsEnd(s, i + 1) else i
  }

  function DigitValue(c: char): (v: nat)
    requires IsDigit(c)
    ensures v < 10
  {
    c as int - '0' as int
  }

  /** The value of a run of decimal digits, most significant first. */
  function DecValue(d: string): nat
    requires AllDigits(d)
  {
    if |d| == 0 then 0 else DecValue(d[..|d| - 1]) * 10 + DigitValue(d[|d| - 1])
  }

  /** Result of `strtoul`: the value and the offset `ep` points at. */
  datatype Conversion = Conversion(value: nat, end: nat)

  /** Offset of the first digit: after leading spaces and an optional sign. */
  function BodyStart(s: string): (j: nat)
    ensures j <= |s|
  {
    var i := SkipSpace(s, 0);
    if i < |s| && (s[i] == '+' || s[i] == '-') then i + 1 else i
  }

  /**
   * `strtoul(s, &ep, 10)`: with no digit `ep` is the start of `s`; an
   * out-of-range value saturates; a leading '-' negates modulo 2^64.
   */
  function Strtoul(s: string): (r: Conversion)
    ensures r.value <= ULongMax
    ensures r.end <= |s|
    ensures r.end == 0 <==> DigitsEnd(s, BodyStart(s)) == BodyStart(s)
    ensures r.end != 0 ==> r.end == DigitsEnd(s, BodyStart(s))
  {
    var i := SkipSpace(s, 0);
    var j := BodyStart(s);
    var k := DigitsEnd(s, j);
    if k == j then Conversion(0, 0)
    else
      var v := DecValue(s[j..k]);
      if v > ULongMax then Conversion(ULongMax, k)
      else if s[i] == '-' then Conversion((ULongModulus - v) % ULongModulus, k)
      else Conversion(v, k)
  }

  /**
   * A string `strtoul` consumes completely: optional spaces, an optional
   * sign, then one or more digits up to the end.
   */
  predicate FullyDecimal(s: string) {
    var j := BodyStart(s);
    j < |s| && AllDigits(s[j..])
  }

  /**
   * The SSRC the mode handler stores, or None where it answers a mode
   * error. Accepted strings are exactly the fully decimal ones.
   */
  function ParseSsrc(s: string): (r: Option<U32>)
    ensures r.Some? <==> FullyDecimal(s)
    ensures r.Some? ==> r.value == Strtoul(s).value % U32Modulus
  {
    var c := Strtoul(s);
    if c.end == 0 || c.end != |s| then None else Some(c.value % U32Modulus)
  }

  /** The canonical decimal spelling of `n`. */
  function Decimal(n: nat): (d: string)
    ensures |d| > 0 && AllDigits(d)
  {
    if n < 10 then ['0' + n as char] else Decimal(n / 10) + ['0' + (n % 10) as char]
  }

  lemma {:induction false} DecValueOfDecimal(n: nat)
    ensures DecValue(Decimal(n)) == n
  {
    var d := Decimal(n);
    if n >= 10 {
      DecValueOfDecimal(n / 10);
      assert d[..|d| - 1] == Decimal(n / 10);
    }
  }

  /** Every 32-bit SSRC written in decimal parses back to itself. */
  lemma {:induction false} ParseDecimalRoundTrip(n: U32)
    ensures ParseSsrc(Decimal(n)) == Some(n)
  {
    var s := Decimal(n);
    assert !IsSpace(s[0]);
    assert SkipSpace(s, 0) == 0;
    assert BodyStart(s) == 0;
    assert DigitsEnd(s, 0) == |s|;
    assert s[0..|s|] == s;
    DecValueOfDecimal(n);
    assert Strtoul(s) == Conversion(n, |s|);
  }

  /** A leading minus sign wraps: "-1" is stored as 0xFFFFFFFF. */
  lemma NegativeWraps()
    ensures ParseSsrc("-1") == Some(0xFFFF_FFFF)
  {
    var s := "-1";
    assert SkipSpace(s, 0) == 0;
    assert DigitsEnd(s, 1) == 2;
    assert s[1..2] == "1";
    assert DecValue("1") == 1 by { assert "1"[..0] == ""; }
  }

  /** The empty string and trailing garbage are rejected. */
  lemma RejectsEmptyAndTrailing()
    ensures ParseSsrc("") == None
    ensures ParseSsrc("12a") == None
  {
    assert !FullyDecimal("12a") by {
      var s := "12a";
      assert SkipSpace(s, 0) == 0;
      assert !IsDigit(s[2]);
      assert s[0..][2] == s[2];
    }
  }
}

=== FILE: static_modules.dfy ===
/**
 * Static module lookup: the built-in modules are listed in a fixed
 * descriptor table closed by an absent entry, and a name is resolved by a
 * linear scan that stops at the first descriptor with that name or at the
 * end of the table.
 */
module StaticModules {
  import opened Common

  /** A module descriptor, reduced to the name the lookup compares. */
  datatype Minfo = Minfo(name: string)

  /** Descriptor slots; `None` is the NULL terminator. */
  type ModTable = seq<Option<Minfo>>

  /** The four built-in modules in table order, then the terminator in the fifth slot. */
  const Modules: ModTable := [
    Some(Minfo("acct_csv")),
    Some(Minfo("acct_rtcp_hep")),
    Some(Minfo("catch_dtmf")),
    Some(Minfo("dtls_gw")),
    None
  ]

  /** The table holds a terminator, so a scan never runs past its end. */
  predicate Terminated(table: ModTable) {
    exists k :: 0 <= k < |table| && table[k].None?
  }

  /** Number of descriptors before the first terminator. */
  function Live(table: ModTable): (n: nat)
    ensures n <= |table|
    ensures forall i :: 0 <= i < n ==> table[i].Some?
    ensures n < |table| ==> table[n].None?
  {
    if |table| == 0 || table[0].None? then 0 else 1 + Live(table[1..])
  }

  /**
   * Reference lookup: the first live descriptor whose name equals `name`,
   * or nothing when no live descriptor carries it.
   */
  function FirstNamed(table: ModTable, name: string): (r: Option<Minfo>)
    ensures r.Some? ==> exists i :: 0 <= i < Live(table) && table[i] == r && r.value.name == name &&
                                    forall j :: 0 <= j < i ==> table[j].value.name != name
    ensures r.None? <==> forall i :: 0 <= i < Live(table) ==> table[i].value.name != name
  {
    if |table| == 0 || table[0].None? then None
    else if table[0].value.name == name then table[0]
    else
      var r := FirstNamed(table[1..], name);
      assert forall i :: 0 <= i < Live(table[1..]) ==> table[1..][i] == table[i + 1];
      r
  }

  /** The scan: walk the slots until the terminator, answering with the first descriptor named `name`. */
  method Lookup(table: ModTable, name: string) returns (r: Option<Minfo>)
    requires Terminated(table)
    ensures r == FirstNamed(table, name)
  {
    var i := 0;
    while table[i].Some?
      invariant 0 <= i < |table|
      invariant exists k :: i <= k < |table| && table[k].None?
      invariant FirstNamed(table[i..], name) == FirstNamed(table, name)
      decreases |table| - i
    {
      if table[i].value.name == name {
        return table[i];
      }
      assert table[i..][1..] == table[i + 1..];
      i := i + 1;
    }
    return None;
  }

  lemma ModulesTerminated()
    ensures Terminated(Modules) && Live(Modules) == 4
  {
    assert Modules[4].None?;
    assert Modules[1..][1..][1..][1..] == [None];
  }

  /** Every built-in module is found under its own name: the names in the table are distinct. */
  lemma EachModuleFound(i: nat)
    requires i < 4
    ensures FirstNamed(Modules, Modules[i].value.name) == Modules[i]
  {
    ModulesTerminated();
    var n := Modules[i].value.name;
    assert "acct_csv"[0] == 'a' && "acct_rtcp_hep"[0] == 'a' && "catch_dtmf"[0] == 'c' && "dtls_gw"[0] == 'd';
    assert "acct_csv"[5] == 'c' && "acct_rtcp_hep"[5] == 'r';
    forall j | 0 <= j < i ensures Modules[j].value.name != n {
      assert Modules[j].value.name[0] != n[0] || Modules[j].value.name[5] != n[5];
    }
  }

  /** The gateway module is found by the name it registers. */
  lemma DtlsGwFound()
    ensures FirstNamed(Modules, "dtls_gw") == Some(Minfo("dtls_gw"))
  {
    EachModuleFound(3);
  }

  /** A name no built-in module carries resolves to nothing. */
  lemma UnknownNameNotFound(name: string)
    requires name != "acct_csv" && name != "acct_rtcp_hep" && name != "catch_dtmf" && name != "dtls_gw"
    ensures FirstNamed(Modules, name).None?
  {
    ModulesTerminated();
  }
}

=== FILE: suites.dfy ===
/**
 * The static SRTP crypto-suite table of the DTLS gateway and the mapping
 * from the protection profile the handshake negotiated to a table row.
 * Profile identifiers are those of section 4.1.2 of RFC 5764 and
 * section 14.2 of RFC 7714.
 */
module Suites {
  import opened Common

  /** Row selectors of the table, in declaration order. */
  datatype SuiteId =
    | AesCm128HmacSha1_32
    | AesCm128HmacSha1_80
    | F8_128HmacSha1_32
    | F8_128HmacSha1_80
    | Aes256CmHmacSha1_32
    | Aes256CmHmacSha1_80
    | AesGcm128
    | AesGcm256

  datatype SecServ = ConfAndAuth

  /** The libsrtp policy initialisers a row may name. */
  datatype PolicyInit =
    | PolicyAesCm128Sha1_32
    | PolicyRtpDefault
    | PolicyAesCm256Sha1_32
    | PolicyAesCm256Sha1_80
    | PolicyAesGcm128Auth16
    | PolicyAesGcm256Auth16

  /** One row: sizes are in bytes; the F8 rows carry no policy initialiser. */
  datatype Suite = Suite(
    canName: string,
    keySize: nat,
    ivSize: nat,
    tagSize: nat,
    secServ: SecServ,
    setPolicy: Option<PolicyInit>)

  /** Capacity of each per-direction key buffer (32 + 14 bytes). */
  const KeyBufLen: nat := 46

  /** Capacity of the keying-material export buffer. */
  const KeymatBufLen: nat := 256

  /** The table itself. Every row fits both buffers. */
  function SuiteRow(id: SuiteId): (s: Suite)
    ensures s.keySize == 16 || s.keySize == 32
    ensures s.ivSize == 14 || s.ivSize == 12
    ensures s.keySize + s.ivSize <= KeyBufLen
    ensures 2 * (s.keySize + s.ivSize) <= KeymatBufLen
    ensures s.tagSize == 4 || s.tagSize == 10 || s.tagSize == 16
    ensures s.setPolicy.None? <==> (id == F8_128HmacSha1_32 || id == F8_128HmacSha1_80)
    ensures s.secServ == ConfAndAuth
  {
    match id
    case AesCm128HmacSha1_32 =>
      Suite("AES_CM_128_HMAC_SHA1_32", 128 / 8, 112 / 8, 32 / 8, ConfAndAuth, Some(PolicyAesCm128Sha1_32))
    case AesCm128HmacSha1_80 =>
      Suite("AES_CM_128_HMAC_SHA1_80", 128 / 8, 112 / 8, 80 / 8, ConfAndAuth, Some(PolicyRtpDefault))
    case F8_128HmacSha1_32 =>
      Suite("F8_128_HMAC_SHA1_32", 128 / 8, 112 / 8, 32 / 8, ConfAndAuth, None)
    case F8_128HmacSha1_80 =>
      Suite("F8_128_HMAC_SHA1_80", 128 / 8, 112 / 8, 80 / 8, ConfAndAuth, None)
    case Aes256CmHmacSha1_32 =>
      Suite("AES_256_CM_HMAC_SHA1_32", 256 / 8, 112 / 8, 32 / 8, ConfAndAuth, Some(PolicyAesCm256Sha1_32))
    case Aes256CmHmacSha1_80 =>
      Suite("AES_256_CM_HMAC_SHA1_80", 256 / 8, 112 / 8, 80 / 8, ConfAndAuth, Some(PolicyAesCm256Sha1_80))
    case AesGcm128 =>
      Suite("AES_128_GCM", 128 / 8, 96 / 8, 128 / 8, ConfAndAuth, Some(PolicyAesGcm128Auth16))
    case AesGcm256 =>
      Suite("AES_256_GCM", 256 / 8, 96 / 8, 128 / 8, ConfAndAuth, Some(PolicyAesGcm256Auth16))
  }

  /** Bytes of key plus salt one direction needs. */
  function MaterialSize(id: SuiteId): (n: nat)
    ensures 0 < n <= KeyBufLen
    ensures 2 * n <= KeymatBufLen
  {
    SuiteRow(id).keySize + SuiteRow(id).ivSize
  }

  /** Protection-profile identifiers as the TLS engine reports them. */
  const ProfileAes128CmSha1_80: nat := 0x0001
  const ProfileAes128CmSha1_32: nat := 0x0002
  const ProfileAes128F8Sha1_80: nat := 0x0003
  const ProfileAes128F8Sha1_32: nat := 0x0004
  const ProfileAeadAes128Gcm: nat := 0x0007
  const ProfileAeadAes256Gcm: nat := 0x0008

  /**
   * The row a negotiated profile selects; None where the source aborts.
   * The 128-bit key profiles select 16-byte keys, the 80- and 32-bit
   * HMAC profiles 10- and 4-byte tags, the AEAD profiles 16-byte tags;
   * no profile reaches the AES-256 counter-mode rows.
   */
  function ProfileSuite(profile: nat): (r: Option<SuiteId>)
    ensures r.Some? <==> profile in {1, 2, 3, 4, 7, 8}
    ensures r.Some? ==> r.value != Aes256CmHmacSha1_32 && r.value != Aes256CmHmacSha1_80
    ensures r.Some? && profile != ProfileAeadAes256Gcm ==> SuiteRow(r.value).keySize == 16
    ensures r.Some? && profile == ProfileAeadAes256Gcm ==> SuiteRow(r.value).keySize == 32
    ensures profile == ProfileAes128CmSha1_80 || profile == ProfileAes128F8Sha1_80 ==>
              r.Some? && SuiteRow(r.value).tagSize == 10
    ensures profile == ProfileAes128CmSha1_32 || profile == ProfileAes128F8Sha1_32 ==>
              r.Some? && SuiteRow(r.value).tagSize == 4
    ensures r.Some? && profile >= ProfileAeadAes128Gcm ==> SuiteRow(r.value).tagSize == 16
    ensures r.Some? ==> (SuiteRow(r.value).setPolicy.None? <==>
                           profile == ProfileAes128F8Sha1_80 || profile == ProfileAes128F8Sha1_32)
    ensures profile == ProfileAes128CmSha1_80 ==> r.Some? && SuiteRow(r.value).canName == "AES_CM_128_HMAC_SHA1_80"
    ensures profile == ProfileAes128CmSha1_32 ==> r.Some? && SuiteRow(r.value).canName == "AES_CM_128_HMAC_SHA1_32"
    ensures profile == ProfileAes128F8Sha1_80 ==> r.Some? && SuiteRow(r.value).canName == "F8_128_HMAC_SHA1_80"
    ensures profile == ProfileAes128F8Sha1_32 ==> r.Some? && SuiteRow(r.value).canName == "F8_128_HMAC_SHA1_32"
    ensures profile == ProfileAeadAes128Gcm ==> r.Some? && SuiteRow(r.value).canName == "AES_128_GCM"
    ensures profile == ProfileAeadAes256Gcm ==> r.Some? && SuiteRow(r.value).canName == "AES_256_GCM"
  {
    if profile == ProfileAes128CmSha1_80 then Some(AesCm128HmacSha1_80)
    else if profile == ProfileAes128CmSha1_32 then Some(AesCm128HmacSha1_32)
    else if profile == ProfileAes128F8Sha1_80 then Some(F8_128HmacSha1_80)
    else if profile == ProfileAes128F8Sha1_32 then Some(F8_128HmacSha1_32)
    else if profile == ProfileAeadAes128Gcm then Some(AesGcm128)
    else if profile == ProfileAeadAes256Gcm then Some(AesGcm256)
    else None
  }

  /** Distinct profiles select distinct rows: the mapping loses no negotiated profile. */
  lemma ProfileSuiteInjective(p1: nat, p2: nat)
    requires ProfileSuite(p1).Some? && p1 != p2
    ensures ProfileSuite(p1) != ProfileSuite(p2)
  {
  }
}
